=== FILE: README.md ===
# Portfolio page logic in Dafny

This project models the behaviour of the two scripts that drive a personal
portfolio page: `localStorage.js` (the favourites manager and the light/dark
theme manager) and `main.js` (`PortfolioApp`: rendering the skill and project
cards, the contact-form rules and the project search). The browser is
replaced by values: the local store is a map from keys to strings, the DOM
parts the scripts touch are small records (favourite buttons, the theme
button, the project cards' display), and every handler is a pure function
from the old state to the new one.

Modules, following the scripts:

- `Wrappers` — `Option` and `Result`.
- `JsString` — the string operations the scripts call, with JavaScript's
  meaning: `trim` and the regular-expression class `\s` over the exact
  ECMAScript white-space and line-terminator set, `.length` in UTF-16 code
  units, `toLowerCase` (ASCII letters), `includes`, and `String(n)` for an
  integer.
- `JsonList` — `JSON.stringify` of an array of strings (with the escapes of
  `QuoteJSONString` in ECMA-262) and a `JSON.parse` for the texts that can
  stand in the favourites entry; the two are proved to round-trip.
- `Storage` — `localStorage.getItem` / `setItem`.
- `Favorites` — `FavoritesManager`: reading, saving and toggling the list,
  `isFavorite`, `updateUI`, the construction and the click listener.
- `Theme` — `ThemeManager`: the starting theme, `setTheme`, `toggleTheme`,
  `updateThemeButton`.
- `Portfolio` — the two managers share the store: neither one's writes
  change the other's entry.
- `EmailPattern` — the email regular expression `/^[^\s@]+@[^\s@]+\.[^\s@]+$/`,
  as a match predicate and as a scan, proved equivalent.
- `FormValidation` — `validateField`, `validateForm` and the submit gate.
- `Content` — the skill and project records.
- `ProjectSearch` — the input listener of `setupSearch` and `filterProjects`.
- `Render` — `renderSkills` and `renderProjects`: the HTML text written to
  each container, reproduced from the template literals character for
  character (the file's CRLF line ends become `\n` inside a template literal).

Two behaviours of the scripts are worth knowing, and the model keeps both:

- A stored favourites list that holds an id twice (only possible if the
  stored text was edited by hand) does not lose the id on a toggle: only the
  first copy is removed. The flip of membership is therefore proved for
  duplicate-free lists, which is all the scripts themselves ever store.
- A stored theme other than `light` or `dark` gives a light page (no
  `dark-mode` class) whose button offers "Ativar modo claro"; one click
  returns to the light theme and a consistent page.

## Model

| member | source | states |
|---|---|---|
| Favorites.GetFavorites | localStorage.js:9-12 | an absent or empty entry gives the empty list; an entry written by `JSON.stringify` of a list reads back as that list; any other text goes through the JSON reading |
| Favorites.IsFavorite | localStorage.js:29-31 | `includes` agrees with `indexOf` finding the id |
| Favorites.IndexOf | localStorage.js:19 | the result is -1 exactly when the id is absent, otherwise the position of its first occurrence |
| Favorites.Toggle | localStorage.js:18-24 | no other id changes membership; on a duplicate-free list the id's membership flips and the list stays duplicate-free; the multiset of ids loses or gains exactly one copy of the id |
| Favorites.ToggleAbsentAppends | localStorage.js:22-24 | an absent id is appended at the end and the other ids keep their order |
| Favorites.TogglePresentRemovesFirst | localStorage.js:19-21 | a present id loses its first occurrence and only that one; the list gets one shorter |
| Favorites.DuplicateSurvivesToggle | localStorage.js:19-21 | any list holding an id at two positions still holds it after one toggle |
| Favorites.ToggleTwiceAbsent | localStorage.js:18-24 | toggling an absent id twice restores the list exactly |
| Favorites.ToggleTwice | localStorage.js:18-24 | toggling any id twice on a duplicate-free list restores its set of ids |
| Favorites.ToggleAllNoDup | localStorage.js:18-24 | any sequence of toggles keeps a duplicate-free list duplicate-free |
| Favorites.ToggleAllParity | localStorage.js:18-24 | after any sequence of toggles an id is a favourite exactly when it started as one or was toggled an odd number of times, but not both |
| Favorites.UpdateUI | localStorage.js:33-44 | one button per button, same items; a button is active exactly when its id is a favourite, showing the red heart when active and the white heart otherwise |
| Favorites.SaveFavorites | localStorage.js:14-16 | reading the entry back gives the saved list; every other key keeps its value |
| Favorites.Init | localStorage.js:3-56 | construction succeeds exactly when the stored entry reads as a list, and then holds that list and the unchanged store, and (the `updateUI` of `init`, line 55) every button keeps its item, is active exactly when its item is a favourite and shows the heart that matches |
| Favorites.InitEmpty | localStorage.js:9-11 | with nothing stored the list starts empty and no button is active |
| Favorites.NonArrayEntryFails | localStorage.js:3-11 | a non-empty stored entry that does not open, after white space, with `[` makes construction fail |
| Favorites.ToggleFavorite | localStorage.js:18-27 | the list is toggled, the store then reads back the new list, no other key changes, and each button is active exactly when its id is in the new list and shows the red heart when active and the white heart otherwise |
| Favorites.ToggleFlipsMembership | localStorage.js:18-31 | on a duplicate-free list `isFavorite` flips for the toggled id and stays the same for every other id |
| Favorites.ToggleKeepsConsistent | localStorage.js:18-44 | a page whose list, store and buttons agree keeps agreeing after any toggle |
| Favorites.ReloadAfterToggle | localStorage.js:9-25 | constructing a manager on the store left by a toggle reads back the list the page shows |
| Favorites.ClickButton | localStorage.js:48-53 | a click on a favourite button toggles the id in its `data-item` |
| Favorites.ClickFlipsButton | localStorage.js:48-53 | on a consistent page the clicked button changes state and the page stays consistent |
| JsonList.Encode | localStorage.js:15 | the saved text is a bracketed JSON array |
| JsonList.RoundTrip | localStorage.js:11-15 | the grammar of a JSON array of strings parses the text `JSON.stringify` made of a list of strings back into that list |
| JsonList.Decode | localStorage.js:11 | `JSON.parse` of any text `JSON.stringify` made of a list of strings gives back that list, and a text that does not open, after JSON white space, with `[` is rejected |
| JsonList.EncodeInjective | localStorage.js:15 | different lists are saved as different texts |
| JsonList.QuoteRoundTrip | localStorage.js:11-15 | every string, with any characters, survives quoting and unquoting |
| Theme.UpdateThemeButton | localStorage.js:83-94 | a button exists after exactly when before; it shows the moon exactly when the theme is light, and offers "Ativar modo escuro" exactly when the theme is light |
| Theme.SetTheme | localStorage.js:71-76 | the current theme is the given one, dark mode is on exactly for "dark", the store holds the theme under its key and no other key changes, and a button, if present, shows the moon and offers "Ativar modo escuro" exactly when the theme is light |
| Theme.ToggleTheme | localStorage.js:78-81 | light becomes dark with dark mode on; anything else becomes light with dark mode off |
| Theme.StoredTheme | localStorage.js:63-69 | an absent or empty entry gives "light"; any other stored text is the theme as stored |
| Theme.Init | localStorage.js:61-99 | the starting theme is the stored one, and `setTheme` has been applied: dark mode is on exactly for "dark", the store holds the theme and no other key changes, the button exists exactly when the page has one and shows the moon and offers "Ativar modo escuro" exactly when the theme is light |
| Theme.DefaultIsLight | localStorage.js:63 | with nothing stored the page starts light, stores "light" and offers dark mode |
| Theme.InitWellFormed | localStorage.js:61-99 | from a stored light, dark, empty or absent entry the page starts with theme, class, store and button in agreement |
| Theme.SetThemeWellFormed | localStorage.js:71-94 | setting light or dark leaves theme, class, store and button in agreement |
| Theme.ToggleWellFormed | localStorage.js:78-94 | every toggle leaves theme, class, store and button in agreement |
| Theme.ToggleTwice | localStorage.js:78-81 | two toggles restore the theme, the class, the button and the stored value |
| Theme.DarkThenLight | localStorage.js:71-76 | setting dark and then light returns a light page to its class and button |
| Theme.ReloadRestoresTheme | localStorage.js:63-74 | a new manager on the store starts in the theme last set, or light if that was empty |
| Theme.ForeignStoredTheme | localStorage.js:63-91 | any stored value other than "", "light" or "dark" gives a page without dark mode whose button shows the sun and offers light mode, and one toggle makes it a consistent light page |
| Portfolio.FavoritesKeepTheme | localStorage.js:4-74 | toggling a favourite leaves the stored theme as it was |
| Portfolio.ThemeKeepsFavorites | localStorage.js:4-74 | setting a theme leaves the stored favourites as they were |
| JsString.Trim | main.js:135 | the result is a slice of the input, empty exactly when the input is all white space, otherwise starting and ending with a non-space, and only white space is cut away |
| JsString.TrimKeeps | main.js:135 | a string with non-space ends is its own trim |
| JsString.Utf16Length | main.js:135 | `.length` is the number of characters plus one for each character outside the Basic Multilingual Plane (its surrogate pair), hence between the number of characters and twice it |
| JsString.Utf16LengthBmp | main.js:135 | without characters beyond the Basic Multilingual Plane `.length` counts characters |
| JsString.Lower | main.js:204-217 | the lowered text has the same length, every ASCII capital becomes its small letter (32 code points on), every other character is unchanged, and no ASCII capital is left |
| JsString.IntToString | main.js:52-54 | the text starts with a minus sign exactly for a negative integer, is otherwise all digits with no leading zero, and the digits spell the magnitude |
| JsString.Contains | main.js:219-222 | `includes` holds exactly when the needle occurs at some position of the text |
| JsString.LowerKeepsOccurrence | main.js:204-222 | a case-sensitive occurrence is still one after lowering both sides |
| JsString.SubstringTrans | main.js:219-222 | a substring of a substring is a substring |
| JsString.IntToStringRoundTrip | main.js:52-54 | the decimal text of an integer reads back as that integer |
| EmailPattern.FirstAt | main.js:141 | the position of the first `@`, or the length when there is none |
| EmailPattern.ScanIffPattern | main.js:141-142 | the scan accepts exactly the strings the regular expression matches |
| EmailPattern.EmailValid | main.js:141-142 | `emailRegex.test` is true exactly when the regular expression matches |
| EmailPattern.PatternShape | main.js:141 | a match is: no white space, exactly one `@` with text before it, and a dot after the `@` with text on both sides |
| FormValidation.LengthCheck | main.js:134-139 | valid exactly when the trimmed value has at least the minimum number of UTF-16 code units; the error text is empty exactly when valid, and is the field's message otherwise |
| FormValidation.EmailCheck | main.js:140-146 | valid exactly when the untrimmed value matches the email expression; the error text is empty exactly when valid, and is "Email inválido" otherwise |
| FormValidation.ValidateField | main.js:127-158 | every field's error text is empty exactly when the field is valid |
| FormValidation.FieldRules | main.js:133-153 | name needs a trimmed length of 2, message of 10, email must match the expression |
| FormValidation.PlainTextLength | main.js:134-152 | for text with non-space ends inside the Basic Multilingual Plane, name is valid from 2 characters and message from 10 |
| FormValidation.AstralNamePasses | main.js:134-139 | a single non-space character passes the name rule exactly when it lies outside the Basic Multilingual Plane, because `.length` counts its two code units |
| FormValidation.BlankFails | main.js:134-152 | white space alone never passes the name or message rule |
| FormValidation.EmailExamples | main.js:140-146 | "x@y" and "x@@y.com" are rejected, "x@y.com" is accepted |
| FormValidation.ValidateForm | main.js:117-125 | every field is validated, in order, whatever the others give; the result is true exactly when all three are valid |
| FormValidation.OnSubmit | main.js:101-106 | the form is handed on exactly when all three fields are valid, and unchanged |
| ProjectSearch.AnyTagContains | main.js:215-222 | true exactly when some lowered tag contains the term |
| ProjectSearch.CardMatches | main.js:213-222 | true exactly when the lowered title, the lowered description or some lowered tag contains the term |
| ProjectSearch.FilterProjects | main.js:209-226 | one display value per card, in page order; a card is shown exactly when it matches the term |
| ProjectSearch.OnSearchInput | main.js:203-206 | a card is shown exactly when it matches the lowered typed value |
| ProjectSearch.EmptySearchShowsAll | main.js:203-226 | an empty search box shows every card |
| ProjectSearch.FilterAppend | main.js:212-225 | each card's display depends on that card alone |
| ProjectSearch.SearchIgnoresCase | main.js:204 | typing a value or its lowered form shows the same cards |
| ProjectSearch.TitleFragmentShows | main.js:204-224 | typing any piece of a project's title keeps its card shown |
| ProjectSearch.NarrowerTermKeeps | main.js:219-222 | a card matching a term matches every piece of it |
| ProjectSearch.TypingMoreOnlyHides | main.js:203-224 | typing more characters never reveals a hidden card |
| Render.SkillCard | main.js:47-57 | the card shows the name as a heading and the level both as the bar width and as the label, in percent |
| Render.LevelReadsBack | main.js:52-54 | the percentage text reads back as the level |
| Render.RenderSkills | main.js:45-59 | the container is emptied exactly when there are no skills, and every skill's card appears in it |
| Render.RenderSkillsAppend | main.js:44-59 | the cards of two lists of skills follow each other in list order |
| Render.SkillCardAt | main.js:44-59 | the i-th card sits between the cards of the skills before and after it |
| Render.EverySkillShown | main.js:44-59 | every skill's name, bar width and label are on the page |
| Render.EveryTagShown | main.js:77-79 | every tag is shown in its own tag span |
| Render.TagsMarkupAppend | main.js:77-79 | the tag spans keep the order of the tags |
| Render.ProjectCard | main.js:68-91 | the card's `data-project` is the lowered title, and it shows the image, title, description, all tags and both links |
| Render.RenderProjects | main.js:66-93 | the container is emptied exactly when there are no projects, and every project's card appears in it |
| Render.RenderProjectsAppend | main.js:66-93 | the cards of two lists of projects follow each other in list order |
| Render.ProjectCardAt | main.js:66-93 | the i-th card sits between the cards of the projects before and after it |
| Render.EveryProjectShown | main.js:66-93 | every project's lowered title (as `data-project`), title and description are on the page, with or without tags, and so is a tag span for each of its tags |

## Left out

- Fetching `data/projects.json` (both `loadSkills` and `loadProjects` read it, taking its `skills` and `projects` arrays), `loadSkills`, `loadProjects` and `init` (main.js): network I/O; the model starts from the parsed records.
- `handleFormSubmit` and `showMessage`: the simulated send logs the form data to the console, shows a success message and calls `form.reset()`, which puts every field back to its default value from the page's HTML (not part of this model); `showMessage` adds a message element that a 5-second timer removes. The model stops at the point where the form data are handed on.
- `animateStats` and `animateValue`: timers and the intersection observer; no state the rest of the page reads.
- `smooth-scroll.js`: scrolling behaviour only.
- The event wiring itself (`addEventListener`, the `DOMContentLoaded` start-up, the blur listeners): each listener is modelled as the function it calls.
- JsonList.Decode: accepts JSON arrays of strings only, with JSON white space and every escape except `\u` escapes of surrogate halves; `JSON.parse` also accepts other JSON values (numbers, objects, nested arrays), which the model treats as a parse failure. Every text the scripts themselves store is accepted.
- Favorites.Init: a stored entry that is not valid JSON makes `JSON.parse` throw and the manager is never built; the model returns a failure instead of the empty list. The throw also ends the `DOMContentLoaded` callback before `new ThemeManager()` runs, so on such a page the theme is never applied; the model builds the two managers independently and does not represent that.
- Favorites.ClickButton: an element without `data-item` passes `undefined` as the id; the model's ids are strings.
- JsString.Lower: folds ASCII letters only, one character at a time. `toLowerCase` also folds other scripts' capitals, depends on context (a Greek capital sigma at the end of a word becomes `ς`, elsewhere `σ`) and can change the length (`İ` becomes two code units). The "same length" clause holds for the model only.
- JsString.LowerKeepsOccurrence: proved for the per-character ASCII fold only. With the program's `toLowerCase` it fails outside ASCII: `ΑΣ` occurs in `ΑΣΑ`, but `ας` does not occur in `ασα`.
- ProjectSearch.TitleFragmentShows: proved for the per-character ASCII fold only. With the program's `toLowerCase`, typing `ΑΣ` hides a card titled `ΑΣΑ`.
- ProjectSearch.TypingMoreOnlyHides: proved for the per-character ASCII fold only. With the program's `toLowerCase`, typing `ΑΣ` hides a card titled `ΑΣΑ`, and typing one more `Α` shows it again.
- Content.Skill: the level is an integer; a fractional or non-numeric level would print differently, and so would an integer of magnitude above 2^53 (see JsString.IntToString).
- JsString.IntToString: agrees with `String(n)` only for |n| ≤ 2^53. Model integers are unbounded, while a JavaScript number is a double: above 2^53 `String` prints the shortest digits that round-trip to the double, padded with zeros (2^64 prints as `18446744073709552000`), and from 10^21 on it uses exponent form.
- FormValidation.ValidateField: assumes the six elements `#name`, `#email`, `#message` and `#name-error`, `#email-error`, `#message-error` exist. If one is missing, `validateField` throws a TypeError on `field.value` or `errorElement.textContent` (main.js:128-129, 135, 155-156). `validateForm` and the submit listener then throw after `preventDefault`, so the form is never handed on, even when every present field is valid; `OnSubmit` always hands it on in that case.
- Render.RenderSkills: the early return when `#skills-container` is missing (main.js:43) is not modelled; the function gives the text that would be written.
- Render.RenderProjects: the early return when `#projects-container` is missing (main.js:64) is not modelled; the function gives the text that would be written.
- ProjectSearch.FilterProjects: reads the title, description and tags from the project record, where the script reads the `textContent` of the rendered card; the two agree when those fields contain no HTML markup or character references.
- Render.SkillCard: fields are inserted into the HTML without escaping, as in the script; how the browser then parses that HTML is not modelled.
- `localStorage` exceptions (quota exceeded, storage disabled) and several tabs writing the same store.

=== FILE: content.dfy ===
/**
 * The records the portfolio page is built from: the `skills` and
 * `projects` arrays of `data/projects.json`.
 */
module Content {

  /** One skill: its name and its level, a percentage. */
  datatype Skill = Skill(name: string, level: int)

  /** One project, with the fields the page shows and searches. */
  datatype Project = Project(
    title: string,
    description: string,
    image: string,
    tags: seq<string>,
    demo: string,
    code: string)
}

=== FILE: email.dfy ===
/**
 * The email rule of `validateField` (main.js): the regular expression
 * `/^[^\s@]+@[^\s@]+\.[^\s@]+$/`, applied to the untrimmed value.
 * `MatchesEmailPattern` states what the anchored expression matches;
 * `ScanAccepts` is a direct scan, the two are proved equal, and
 * `EmailValid` decides the pattern by the scan.
 */
module EmailPattern {

  import JsString

  /** One character of the class `[^\s@]`. */
  predicate PlainChar(c: char) {
    !JsString.IsSpace(c) && c != '@'
  }

  /** Every character of `s[i..j]` belongs to `[^\s@]`. */
  ghost predicate PlainRange(s: string, i: int, j: int)
    requires 0 <= i <= j <= |s|
  {
    forall k :: i <= k < j ==> PlainChar(s[k])
  }

  /** `s` is `[^\s@]+ @ [^\s@]+ . [^\s@]+` with the `@` at `at` and the dot
      at `dot`; the three runs are `s[..at]`, `s[at + 1..dot]`, `s[dot + 1..]`. */
  ghost predicate EmailSplit(s: string, at: int, dot: int) {
    && 0 < at && at + 1 < dot && dot + 1 < |s|
    && s[at] == '@' && s[dot] == '.'
    && PlainRange(s, 0, at) && PlainRange(s, at + 1, dot) && PlainRange(s, dot + 1, |s|)
  }

  /** The regular expression matches `s`. */
  ghost predicate MatchesEmailPattern(s: string) {
    exists at, dot :: EmailSplit(s, at, dot)
  }

  /** Number of `@` characters in `s`. */
  function CountAt(s: string): nat {
    if s == [] then 0 else (if s[0] == '@' then 1 else 0) + CountAt(s[1..])
  }

  /** Position of the first `@`, or `|s|` when there is none. */
  function FirstAt(s: string): (i: nat)
    ensures i <= |s|
    ensures forall k :: 0 <= k < i ==> s[k] != '@'
    ensures i < |s| ==> s[i] == '@'
  {
    if s == [] || s[0] == '@' then 0 else 1 + FirstAt(s[1..])
  }

  predicate NoSpace(s: string) {
    forall k :: 0 <= k < |s| ==> !JsString.IsSpace(s[k])
  }

  /** The email test as a scan: no white space, exactly one `@` with text
      before it, and after it a dot that is neither the first nor the last
      character of the domain. */
  predicate ScanAccepts(s: string) {
    var at := FirstAt(s);
    && NoSpace(s)
    && CountAt(s) == 1
    && 0 < at && at + 3 <= |s|
    && '.' in s[at + 2..|s| - 1]
  }

  // ---------------------------------------------------------------------------
  // Counting `@`

  /** No `@` anywhere in `s` except at `at`. */
  ghost predicate NoAtExcept(s: string, at: int) {
    forall k :: 0 <= k < |s| && k != at ==> s[k] != '@'
  }

  lemma {:induction false} CountAtSplit(a: string, b: string)
    ensures CountAt(a + b) == CountAt(a) + CountAt(b)
    decreases |a|
  {
    if a != [] {
      assert (a + b)[0] == a[0];
      assert (a + b)[1..] == a[1..] + b;
      CountAtSplit(a[1..], b);
    } else {
      assert a + b == b;
    }
  }

  lemma {:induction false} CountAtZero(s: string)
    ensures CountAt(s) == 0 <==> forall k :: 0 <= k < |s| ==> s[k] != '@'
    decreases |s|
  {
    if s != [] {
      CountAtZero(s[1..]);
      assert forall k :: 1 <= k < |s| ==> s[k] == s[1..][k - 1];
      assert (forall k :: 0 <= k < |s| ==> s[k] != '@')
         <==> s[0] != '@' && (forall k :: 0 <= k < |s[1..]| ==> s[1..][k] != '@');
    }
  }

  /** With an `@` at `at`, there is exactly one `@` iff there is none elsewhere. */
  lemma CountAtOne(s: string, at: int)
    requires 0 <= at < |s| && s[at] == '@'
    ensures CountAt(s) == 1 <==> NoAtExcept(s, at)
  {
    var pre, post := s[..at], s[at + 1..];
    JsString.SplitAround(s, at);
    CountAtSplit(pre + [s[at]], post);
    CountAtSplit(pre, [s[at]]);
    CountAtZero(pre);
    CountAtZero(post);
    assert forall k :: 0 <= k < at ==> s[k] == pre[k];
    assert forall k :: at < k < |s| ==> s[k] == post[k - at - 1];
  }

  /** The first `@` is the only one before which there is none. */
  lemma FirstAtIs(s: string, at: int)
    requires 0 <= at < |s| && s[at] == '@'
    requires forall k :: 0 <= k < at ==> s[k] != '@'
    ensures FirstAt(s) == at
  {
  }

  // ---------------------------------------------------------------------------
  // The scan agrees with the pattern

  lemma ScanGivesSplit(s: string)
    requires ScanAccepts(s)
    ensures MatchesEmailPattern(s)
  {
    var at := FirstAt(s);
    CountAtOne(s, at);
    var inner := s[at + 2..|s| - 1];
    var j :| 0 <= j < |inner| && inner[j] == '.';
    var dot := at + 2 + j;
    assert s[dot] == '.';
    assert EmailSplit(s, at, dot);
  }

  lemma SplitGivesScan(s: string, at: int, dot: int)
    requires EmailSplit(s, at, dot)
    ensures ScanAccepts(s)
  {
    assert NoAtExcept(s, at);
    CountAtOne(s, at);
    FirstAtIs(s, at);
    assert NoSpace(s);
    assert s[at + 2..|s| - 1][dot - at - 2] == '.';
  }

  /** `emailRegex.test(value)`: true exactly when the regular expression
      matches, decided by the scan. */
  function EmailValid(s: string): (r: bool)
    ensures r <==> MatchesEmailPattern(s)
  {
    ScanIffPattern(s);
    ScanAccepts(s)
  }

  /** The scan accepts exactly the strings the regular expression matches. */
  lemma ScanIffPattern(s: string)
    ensures ScanAccepts(s) <==> MatchesEmailPattern(s)
  {
    if ScanAccepts(s) {
      ScanGivesSplit(s);
    }
    if MatchesEmailPattern(s) {
      var at, dot :| EmailSplit(s, at, dot);
      SplitGivesScan(s, at, dot);
    }
  }

  /** The pattern spelled out: no white space, exactly one `@`, text before
      it, and a dot strictly inside the part after it. */
  lemma PatternShape(s: string)
    ensures MatchesEmailPattern(s) <==>
      && NoSpace(s) && CountAt(s) == 1
      && exists at, dot :: 0 < at && at + 1 < dot && dot + 1 < |s| && s[at] == '@' && s[dot] == '.'
  {
    ScanIffPattern(s);
    if NoSpace(s) && CountAt(s) == 1 && exists at, dot :: 0 < at && at + 1 < dot && dot + 1 < |s| && s[at] == '@' && s[dot] == '.' {
      var at, dot :| 0 < at && at + 1 < dot && dot + 1 < |s| && s[at] == '@' && s[dot] == '.';
      CountAtOne(s, at);
      assert EmailSplit(s, at, dot);
    }
  }
}

=== FILE: favorites.dfy ===
/**
 * `FavoritesManager` (localStorage.js): an ordered list of favourite ids,
 * written through to the store under `portfolio-favorites` after every toggle,
 * and reflected into every favourite button of the page.
 */
module Favorites {

  import opened Wrappers
  import JsonList
  import Storage

  const FavoritesKey: string := "portfolio-favorites"

  /** Button text for a favourite (red heart) and a non-favourite (white heart). */
  const ActiveText: string := "\U{2764}\U{FE0F}"
  const InactiveText: string := "\U{1F90D}"

  /** A `.favorite-btn` element: its `data-item` id, whether it carries the
      `active` class, and its text. */
  datatype Button = Button(item: string, active: bool, text: string)

  /** The manager's list together with the store and the page's buttons. */
  datatype Page = Page(favorites: seq<string>, store: Storage.Store, buttons: seq<Button>)

  /** No id appears twice. */
  predicate NoDup(xs: seq<string>) {
    forall i, j :: 0 <= i < j < |xs| ==> xs[i] != xs[j]
  }

  /** `Array.prototype.indexOf`: the first position of `x`, or -1. */
  function IndexOf(xs: seq<string>, x: string): (r: int)
    ensures -1 <= r < |xs|
    ensures r == -1 <==> x !in xs
    ensures 0 <= r ==> xs[r] == x && x !in xs[..r]
  {
    if xs == [] then -1
    else if xs[0] == x then 0
    else
      var k := IndexOf(xs[1..], x);
      if k == -1 then -1
      else
        assert xs[..k + 1] == [xs[0]] + xs[1..][..k];
        k + 1
  }

  /** Removing the element at `i` drops one copy of it and nothing else. */
  lemma RemoveAtMultiset(xs: seq<string>, i: int)
    requires 0 <= i < |xs|
    ensures multiset(xs[..i] + xs[i + 1..]) == multiset(xs) - multiset{xs[i]}
  {
    assert xs == xs[..i] + [xs[i]] + xs[i + 1..];
  }

  lemma RemoveAtMembership(xs: seq<string>, i: int)
    requires 0 <= i < |xs|
    ensures forall y :: y != xs[i] ==> (y in xs[..i] + xs[i + 1..] <==> y in xs)
  {
    RemoveAtMultiset(xs, i);
    var r := xs[..i] + xs[i + 1..];
    forall y | y != xs[i]
      ensures y in r <==> y in xs
    {
      assert y in r <==> y in multiset(r);
      assert y in xs <==> y in multiset(xs);
    }
  }

  /** Index in `xs` of position `k` of `xs` with position `i` removed. */
  function Skip(i: int, k: int): int {
    if k < i then k else k + 1
  }

  lemma RemoveAtNoDup(xs: seq<string>, i: int)
    requires 0 <= i < |xs|
    ensures NoDup(xs) ==> NoDup(xs[..i] + xs[i + 1..]) && xs[i] !in xs[..i] + xs[i + 1..]
  {
    var r := xs[..i] + xs[i + 1..];
    assert forall k :: 0 <= k < |r| ==> r[k] == xs[Skip(i, k)];
  }

  /** Appending an absent id keeps the list duplicate-free. */
  lemma AppendAbsent(xs: seq<string>, id: string)
    requires id !in xs
    ensures NoDup(xs) ==> NoDup(xs + [id])
  {
  }

  /** `toggleFavorite` on the list alone: remove the first occurrence of `id`
      when present (`splice(index, 1)`), append it otherwise (`push`). */
  function Toggle(xs: seq<string>, id: string): (r: seq<string>)
    ensures forall y :: y != id ==> (y in r <==> y in xs)
    ensures NoDup(xs) ==> (id in r <==> id !in xs)
    ensures NoDup(xs) ==> NoDup(r)
    ensures multiset(r) == if id in xs then multiset(xs) - multiset{id} else multiset(xs) + multiset{id}
  {
    var i := IndexOf(xs, id);
    if i > -1 then
      RemoveAtMultiset(xs, i);
      RemoveAtMembership(xs, i);
      RemoveAtNoDup(xs, i);
      xs[..i] + xs[i + 1..]
    else
      AppendAbsent(xs, id);
      xs + [id]
  }

  /** `isFavorite`: a membership test. */
  function IsFavorite(p: Page, id: string): (r: bool)
    ensures r <==> IndexOf(p.favorites, id) > -1
  {
    id in p.favorites
  }

  /** `updateUI`: every button shows whether its id is a favourite. */
  function UpdateUI(favorites: seq<string>, buttons: seq<Button>): (r: seq<Button>)
    ensures |r| == |buttons|
    ensures forall i :: 0 <= i < |r| ==> r[i].item == buttons[i].item
    ensures forall i :: 0 <= i < |r| ==>
      (r[i].active <==> buttons[i].item in favorites)
      && r[i].text == (if r[i].active then ActiveText else InactiveText)
  {
    if buttons == [] then []
    else
      var b := buttons[0];
      var shown :=
        if b.item in favorites then Button(b.item, true, ActiveText)
        else Button(b.item, false, InactiveText);
      [shown] + UpdateUI(favorites, buttons[1..])
  }

  /** `getFavorites`: an absent or empty entry is the empty list; anything
      else goes through `JSON.parse`, which fails on malformed text. */
  function GetFavorites(store: Storage.Store): (r: Result<seq<string>, JsonList.DecodeError>)
    ensures Storage.GetItem(store, FavoritesKey) in {None, Some("")} ==> r == Success([])
    ensures forall xs :: Storage.GetItem(store, FavoritesKey) == Some(JsonList.Encode(xs)) ==> r == Success(xs)
    ensures forall text :: Storage.GetItem(store, FavoritesKey) == Some(text) && text != "" ==> r == JsonList.Decode(text)
  {
    match Storage.GetItem(store, FavoritesKey)
    case None => Success([])
    case Some(text) => if text == "" then Success([]) else JsonList.Decode(text)
  }

  /** `saveFavorites`: write the encoded list under the favourites key. */
  function SaveFavorites(store: Storage.Store, favorites: seq<string>): (r: Storage.Store)
    ensures GetFavorites(r) == Success(favorites)
    ensures forall k :: k != FavoritesKey ==> Storage.GetItem(r, k) == Storage.GetItem(store, k)
  {
    Storage.SetItem(store, FavoritesKey, JsonList.Encode(favorites))
  }

  /** The constructor: read the list (a parse failure aborts construction),
      then render the buttons once. */
  function Init(store: Storage.Store, buttons: seq<Button>): (r: Result<Page, JsonList.DecodeError>)
    ensures r.Success? <==> GetFavorites(store).Success?
    ensures r.Success? ==> r.value.favorites == GetFavorites(store).value && r.value.store == store
    ensures r.Success? ==> |r.value.buttons| == |buttons|
    ensures r.Success? ==> forall i :: 0 <= i < |buttons| ==>
      r.value.buttons[i].item == buttons[i].item
      && (r.value.buttons[i].active <==> buttons[i].item in r.value.favorites)
      && r.value.buttons[i].text == (if r.value.buttons[i].active then ActiveText else InactiveText)
  {
    var favorites :- GetFavorites(store);
    Success(Page(favorites, store, UpdateUI(favorites, buttons)))
  }

  /** `toggleFavorite`: toggle, write through, re-render. */
  function ToggleFavorite(p: Page, id: string): (r: Page)
    ensures r.favorites == Toggle(p.favorites, id)
    ensures GetFavorites(r.store) == Success(r.favorites)
    ensures forall k :: k != FavoritesKey ==> Storage.GetItem(r.store, k) == Storage.GetItem(p.store, k)
    ensures |r.buttons| == |p.buttons|
    ensures forall i :: 0 <= i < |r.buttons| ==>
      r.buttons[i].item == p.buttons[i].item && (r.buttons[i].active <==> IsFavorite(r, p.buttons[i].item))
    ensures forall i :: 0 <= i < |r.buttons| ==>
      r.buttons[i].text == (if r.buttons[i].active then ActiveText else InactiveText)
  {
    var favorites := Toggle(p.favorites, id);
    Page(favorites, SaveFavorites(p.store, favorites), UpdateUI(favorites, p.buttons))
  }

  /** The document click listener of `init`: a click on a favourite button
      toggles the id in its `data-item`, and that button changes state. */
  function ClickButton(p: Page, i: int): (r: Page)
    requires 0 <= i < |p.buttons|
    ensures r.favorites == Toggle(p.favorites, p.buttons[i].item)
    ensures |r.buttons| == |p.buttons| && r.buttons[i].item == p.buttons[i].item
  {
    ToggleFavorite(p, p.buttons[i].item)
  }

  /** On a consistent page, the clicked button changes state and the page
      stays consistent. */
  lemma ClickFlipsButton(p: Page, i: int)
    requires Consistent(p) && 0 <= i < |p.buttons|
    ensures Consistent(ClickButton(p, i))
    ensures ClickButton(p, i).buttons[i].active == !p.buttons[i].active
  {
    ToggleKeepsConsistent(p, p.buttons[i].item);
    ToggleFlipsMembership(p, p.buttons[i].item);
  }

  // ---------------------------------------------------------------------------
  // Properties of the toggle

  /** Toggling an absent id appends it and keeps everything else in place. */
  lemma ToggleAbsentAppends(xs: seq<string>, id: string)
    requires id !in xs
    ensures Toggle(xs, id) == xs + [id]
  {
  }

  /** Toggling a present id removes exactly its first occurrence. */
  lemma TogglePresentRemovesFirst(xs: seq<string>, id: string, i: int)
    requires 0 <= i < |xs| && xs[i] == id && id !in xs[..i]
    ensures Toggle(xs, id) == xs[..i] + xs[i + 1..]
    ensures |Toggle(xs, id)| == |xs| - 1
  {
  }

  /** With no duplicates, `isFavorite` flips under `toggleFavorite`. */
  lemma ToggleFlipsMembership(p: Page, id: string)
    requires NoDup(p.favorites)
    ensures IsFavorite(ToggleFavorite(p, id), id) == !IsFavorite(p, id)
    ensures forall y :: y != id ==> IsFavorite(ToggleFavorite(p, id), y) == IsFavorite(p, y)
  {
  }

  /** A duplicated id (possible only in a tampered store) survives one toggle. */
  lemma DuplicateSurvivesToggle(xs: seq<string>, id: string, i: int, j: int)
    requires 0 <= i < j < |xs| && xs[i] == id && xs[j] == id
    ensures id in Toggle(xs, id)
  {
    var k := IndexOf(xs, id);
    assert forall m :: 0 <= m < k ==> xs[..k][m] == xs[m];
    LaterSurvivesRemoval(xs, k, j);
    TogglePresentRemovesFirst(xs, id, k);
  }

  lemma LaterSurvivesRemoval(xs: seq<string>, k: int, j: int)
    requires 0 <= k < j < |xs|
    ensures xs[j] in xs[..k] + xs[k + 1..]
  {
    assert (xs[..k] + xs[k + 1..])[j - 1] == xs[j];
  }

  /** Toggling an absent id twice restores the list exactly. */
  lemma ToggleTwiceAbsent(xs: seq<string>, id: string)
    requires id !in xs
    ensures Toggle(Toggle(xs, id), id) == xs
  {
    var ys := xs + [id];
    TogglePresentRemovesFirst(ys, id, |xs|);
    assert ys[..|xs|] == xs;
  }

  /** Toggling twice restores the set of favourites (the order may change). */
  lemma ToggleTwice(xs: seq<string>, id: string)
    requires NoDup(xs)
    ensures forall y :: y in Toggle(Toggle(xs, id), id) <==> y in xs
  {
  }

  /** Whether `x` occurs an odd number of times in `ids`. */
  function OddCount(ids: seq<string>, x: string): bool {
    if ids == [] then false else (ids[0] == x) != OddCount(ids[1..], x)
  }

  /** The list after a sequence of toggles, applied left to right. */
  function ToggleAll(xs: seq<string>, ids: seq<string>): seq<string>
    decreases |ids|
  {
    if ids == [] then xs else ToggleAll(Toggle(xs, ids[0]), ids[1..])
  }

  /** A sequence of toggles never introduces a duplicate. */
  lemma {:induction false} ToggleAllNoDup(xs: seq<string>, ids: seq<string>)
    requires NoDup(xs)
    ensures NoDup(ToggleAll(xs, ids))
    decreases |ids|
  {
    if ids != [] {
      ToggleAllNoDup(Toggle(xs, ids[0]), ids[1..]);
    }
  }

  /** After a sequence of toggles, `y` is a favourite iff it was one before
      XOR it was toggled an odd number of times. */
  lemma {:induction false} ToggleAllParity(xs: seq<string>, ids: seq<string>, y: string)
    requires NoDup(xs)
    ensures (y in ToggleAll(xs, ids)) <==> ((y in xs) != OddCount(ids, y))
    decreases |ids|
  {
    if ids != [] {
      var ys := Toggle(xs, ids[0]);
      ToggleAllParity(ys, ids[1..], y);
    }
  }

  // ---------------------------------------------------------------------------
  // Page invariant

  /** The page shows and stores exactly the manager's list. */
  predicate Consistent(p: Page) {
    && NoDup(p.favorites)
    && GetFavorites(p.store) == Success(p.favorites)
    && forall i :: 0 <= i < |p.buttons| ==>
         (p.buttons[i].active <==> p.buttons[i].item in p.favorites)
         && p.buttons[i].text == (if p.buttons[i].active then ActiveText else InactiveText)
  }

  /** A fresh page with nothing stored starts consistent and empty. */
  lemma InitEmpty(store: Storage.Store, buttons: seq<Button>)
    requires Storage.GetItem(store, FavoritesKey) == None
    ensures Init(store, buttons).Success?
    ensures Init(store, buttons).value.favorites == []
    ensures forall i :: 0 <= i < |buttons| ==> !Init(store, buttons).value.buttons[i].active
  {
  }

  /** A non-empty stored entry that is not a JSON array (white space only,
      an object, a bare word, ...) makes `JSON.parse` throw, so the manager
      is never built. */
  lemma NonArrayEntryFails(store: Storage.Store, text: string, buttons: seq<Button>)
    requires Storage.GetItem(store, FavoritesKey) == Some(text) && text != ""
    requires JsonList.SkipSpace(text) == [] || JsonList.SkipSpace(text)[0] != '['
    ensures Init(store, buttons).Failure?
  {
  }

  /** Every toggle keeps the page consistent. */
  lemma ToggleKeepsConsistent(p: Page, id: string)
    requires Consistent(p)
    ensures Consistent(ToggleFavorite(p, id))
  {
  }

  /** Reloading after a toggle reads back the list the page shows. */
  lemma ReloadAfterToggle(p: Page, id: string, buttons: seq<Button>)
    ensures Init(ToggleFavorite(p, id).store, buttons).Success?
    ensures Init(ToggleFavorite(p, id).store, buttons).value.favorites == ToggleFavorite(p, id).favorites
  {
  }
}

=== FILE: json.dfy ===
/**
 * The persisted form of the favourites list: `JSON.stringify` of an array of
 * strings and the part of `JSON.parse` that reads such an array back.
 * The escaping follows `QuoteJSONString` in section 25.5.2 of ECMA-262
 * (2019 and later): the seven short escapes, `\u00xx` with lower-case hex for
 * the other control characters, every other character verbatim.
 */
module JsonList {

  import opened Wrappers

  datatype DecodeError = SyntaxError

  // ---------------------------------------------------------------------------
  // Encoding

  function HexDigit(d: nat): char
    requires d < 16
  {
    if d < 10 then ('0' as int + d) as char else ('a' as int + d - 10) as char
  }

  /** Escaped form of one character inside a JSON string literal. */
  function EscapeChar(c: char): string {
    if c == '"' then "\\\""
    else if c == '\\' then "\\\\"
    else if c == '\U{8}' then "\\b"
    else if c == '\t' then "\\t"
    else if c == '\n' then "\\n"
    else if c == '\U{C}' then "\\f"
    else if c == '\r' then "\\r"
    else if (c as int) < 0x20 then ['\\', 'u', '0', '0', HexDigit(c as int / 16), HexDigit(c as int % 16)]
    else [c]
  }

  function EscapeAll(s: string): string {
    if s == [] then [] else EscapeChar(s[0]) + EscapeAll(s[1..])
  }

  /** A JSON string literal. */
  function Quote(s: string): string {
    "\"" + EscapeAll(s) + "\""
  }

  /** The comma-separated literals of a non-empty array. */
  function Elements(xs: seq<string>): string
    requires xs != []
  {
    if |xs| == 1 then Quote(xs[0]) else Quote(xs[0]) + "," + Elements(xs[1..])
  }

  /** `JSON.stringify` of an array of strings. */
  function Encode(xs: seq<string>): (t: string)
    ensures |t| >= 2 && t[0] == '[' && t[|t| - 1] == ']'
  {
    if xs == [] then "[]" else "[" + Elements(xs) + "]"
  }

  // ---------------------------------------------------------------------------
  // Decoding

  /** JSON insignificant white space. */
  predicate IsJsonSpace(c: char) {
    c == ' ' || c == '\t' || c == '\n' || c == '\r'
  }

  function SkipSpace(s: string): (r: string)
    ensures |r| <= |s|
  {
    if s != [] && IsJsonSpace(s[0]) then SkipSpace(s[1..]) else s
  }

  function HexValue(c: char): Option<nat> {
    if '0' <= c <= '9' then Some(c as int - '0' as int)
    else if 'a' <= c <= 'f' then Some(c as int - 'a' as int + 10)
    else if 'A' <= c <= 'F' then Some(c as int - 'A' as int + 10)
    else None
  }

  /** Code point of the four hex digits `s[0..4]`. */
  function Hex4(s: string): Option<nat>
    requires |s| >= 4
  {
    match (HexValue(s[0]), HexValue(s[1]), HexValue(s[2]), HexValue(s[3]))
    case (Some(a), Some(b), Some(c), Some(d)) => Some(((a * 16 + b) * 16 + c) * 16 + d)
    case _ => None
  }

  /** The character an escape sequence `s` (starting at the backslash)
      denotes, with the number of characters it spans. */
  function Unescape(s: string): (r: Option<(char, nat)>)
    requires |s| >= 1 && s[0] == '\\'
    ensures r.Some? ==> 2 <= r.value.1 <= |s|
  {
    if |s| < 2 then None
    else if s[1] == '"' then Some(('"', 2))
    else if s[1] == '\\' then Some(('\\', 2))
    else if s[1] == '/' then Some(('/', 2))
    else if s[1] == 'b' then Some(('\U{8}', 2))
    else if s[1] == 'f' then Some(('\U{C}', 2))
    else if s[1] == 'n' then Some(('\n', 2))
    else if s[1] == 'r' then Some(('\r', 2))
    else if s[1] == 't' then Some(('\t', 2))
    else if s[1] == 'u' && |s| >= 6 then
      match Hex4(s[2..6])
      case Some(n) =>
        if n < 0xD800 || 0xE000 <= n then Some((n as char, 6)) else None
      case None => None
    else None
  }

  /** Reads the body of a string literal whose opening quote has been
      consumed; yields the decoded text and what follows the closing quote. */
  function StringBody(s: string): (r: Option<(string, string)>)
    ensures r.Some? ==> |r.value.1| < |s|
    decreases |s|
  {
    if s == [] then None
    else if s[0] == '"' then Some(([], s[1..]))
    else if s[0] == '\\' then
      match Unescape(s)
      case None => None
      case Some((c, n)) =>
        match StringBody(s[n..])
        case None => None
        case Some((body, rest)) => Some(([c] + body, rest))
    else if (s[0] as int) < 0x20 then None
    else
      match StringBody(s[1..])
      case None => None
      case Some((body, rest)) => Some(([s[0]] + body, rest))
  }

  /** Reads `"..." (, "...")* ]` (white space allowed between tokens);
      yields the strings and what follows the closing bracket. */
  function ArrayTail(s: string): (r: Option<(seq<string>, string)>)
    ensures r.Some? ==> |r.value.1| < |s|
    decreases |s|
  {
    if s == [] || s[0] != '"' then None
    else
      match StringBody(s[1..])
      case None => None
      case Some((x, rest)) =>
        var t := SkipSpace(rest);
        if t == [] then None
        else if t[0] == ']' then Some(([x], t[1..]))
        else if t[0] == ',' then
          match ArrayTail(SkipSpace(t[1..]))
          case None => None
          case Some((xs, after)) => Some(([x] + xs, after))
        else None
  }

  /** The text after the value must be white space only. */
  function AtEnd(xs: seq<string>, rest: string): Result<seq<string>, DecodeError> {
    if SkipSpace(rest) == [] then Success(xs) else Failure(SyntaxError)
  }

  /** The array after its opening bracket and any white space. */
  function Items(t: string): Result<seq<string>, DecodeError> {
    if t != [] && t[0] == ']' then AtEnd([], t[1..])
    else
      match ArrayTail(t)
      case None => Failure(SyntaxError)
      case Some((xs, rest)) => AtEnd(xs, rest)
  }

  /** The grammar of a JSON array of strings, surrounded by white space; any
      other text is a syntax error. */
  function ParseArray(text: string): Result<seq<string>, DecodeError> {
    var s := SkipSpace(text);
    if s == [] || s[0] != '[' then Failure(SyntaxError) else Items(SkipSpace(s[1..]))
  }

  // ---------------------------------------------------------------------------
  // Round trip

  lemma HexRoundTrip(d: nat)
    requires d < 16
    ensures HexValue(HexDigit(d)) == Some(d)
  {
  }

  /** Control characters without a short escape are written `\u00xx`. */
  predicate NeedsUnicodeEscape(c: char) {
    (c as int) < 0x20 && c != '\U{8}' && c != '\t' && c != '\n' && c != '\U{C}' && c != '\r'
  }

  /** What `StringBody` yields after reading `c` in front of `rest`. */
  function Prepend(c: char, r: Option<(string, string)>): Option<(string, string)> {
    match r
    case None => None
    case Some((body, after)) => Some(([c] + body, after))
  }

  lemma UnicodeEscapeRoundTrip(c: char, rest: string)
    requires NeedsUnicodeEscape(c)
    ensures StringBody(EscapeChar(c) + rest) == Prepend(c, StringBody(rest))
  {
    var n := c as int;
    var s := EscapeChar(c) + rest;
    HexRoundTrip(n / 16);
    HexRoundTrip(n % 16);
    assert s[2..6] == ['0', '0', HexDigit(n / 16), HexDigit(n % 16)];
    assert Hex4(s[2..6]) == Some(n);
    assert Unescape(s) == Some((c, 6));
    assert s[6..] == rest;
  }

  lemma ShortEscapeRoundTrip(c: char, rest: string)
    requires |EscapeChar(c)| == 2
    ensures StringBody(EscapeChar(c) + rest) == Prepend(c, StringBody(rest))
  {
    var s := EscapeChar(c) + rest;
    assert s[0] == '\\';
    assert Unescape(s) == Some((c, 2));
    assert s[2..] == rest;
  }

  lemma VerbatimRoundTrip(c: char, rest: string)
    requires EscapeChar(c) == [c]
    ensures StringBody(EscapeChar(c) + rest) == Prepend(c, StringBody(rest))
  {
    var s := [c] + rest;
    assert s[1..] == rest;
  }

  /** Reading one escaped character back. */
  lemma EscapeCharRoundTrip(c: char, rest: string)
    ensures StringBody(EscapeChar(c) + rest) == Prepend(c, StringBody(rest))
  {
    if NeedsUnicodeEscape(c) {
      UnicodeEscapeRoundTrip(c, rest);
    } else if |EscapeChar(c)| == 2 {
      ShortEscapeRoundTrip(c, rest);
    } else {
      VerbatimRoundTrip(c, rest);
    }
  }

  lemma {:induction false} StringBodyRoundTrip(s: string, rest: string)
    ensures StringBody(EscapeAll(s) + "\"" + rest) == Some((s, rest))
    decreases |s|
  {
    if s == [] {
      assert EscapeAll(s) + "\"" + rest == "\"" + rest;
    } else {
      var tail := EscapeAll(s[1..]) + "\"" + rest;
      assert EscapeAll(s) + "\"" + rest == EscapeChar(s[0]) + tail;
      EscapeCharRoundTrip(s[0], tail);
      StringBodyRoundTrip(s[1..], rest);
      assert [s[0]] + s[1..] == s;
    }
  }

  /** A quoted literal followed by `u` is read back as its text, leaving `u`. */
  lemma QuoteRoundTrip(x: string, u: string)
    ensures (Quote(x) + u)[0] == '"'
    ensures StringBody((Quote(x) + u)[1..]) == Some((x, u))
  {
    assert (Quote(x) + u)[1..] == EscapeAll(x) + "\"" + u;
    StringBodyRoundTrip(x, u);
  }

  lemma SkipSpaceStops(s: string)
    requires s != [] && !IsJsonSpace(s[0])
    ensures SkipSpace(s) == s
  {
  }

  /** The last literal of an array is followed by the closing bracket. */
  lemma ArrayTailLast(x: string, rest: string)
    ensures ArrayTail(Quote(x) + ("]" + rest)) == Some(([x], rest))
  {
    var u := "]" + rest;
    QuoteRoundTrip(x, u);
    SkipSpaceStops(u);
    assert u[1..] == rest;
  }

  /** A literal followed by a comma continues with the next literal. */
  lemma ArrayTailNext(x: string, t: string, xs: seq<string>, rest: string)
    requires t != [] && t[0] == '"'
    requires ArrayTail(t) == Some((xs, rest))
    ensures ArrayTail(Quote(x) + ("," + t)) == Some(([x] + xs, rest))
  {
    var u := "," + t;
    var s := Quote(x) + u;
    QuoteRoundTrip(x, u);
    assert s != [] && s[0] == '"';
    assert StringBody(s[1..]) == Some((x, u));
    SkipSpaceStops(u);
    assert u[0] == ',' && u[1..] == t;
    SkipSpaceStops(t);
    assert ArrayTail(SkipSpace(u[1..])) == Some((xs, rest));
  }

  /** An encoded element list starts with the opening quote of its first literal. */
  lemma ElementsStart(xs: seq<string>, u: string)
    requires xs != []
    ensures (Elements(xs) + u)[0] == '"'
  {
    var q := Quote(xs[0]);
    assert q[0] == '"';
    if |xs| == 1 {
      assert Elements(xs) + u == q + u;
    } else {
      assert Elements(xs) + u == q + ("," + Elements(xs[1..]) + u);
    }
  }

  lemma Associate(a: string, b: string, c: string, d: string)
    ensures a + b + c + d == a + (b + (c + d))
  {
  }

  lemma ElementsCons(xs: seq<string>)
    requires |xs| > 1
    ensures Elements(xs) == Quote(xs[0]) + "," + Elements(xs[1..])
  {
  }

  lemma ElementsUnfold(xs: seq<string>, u: string)
    requires |xs| > 1
    ensures Elements(xs) + u == Quote(xs[0]) + ("," + (Elements(xs[1..]) + u))
  {
    ElementsCons(xs);
    Associate(Quote(xs[0]), ",", Elements(xs[1..]), u);
  }

  lemma {:induction false} ArrayTailRoundTrip(xs: seq<string>, rest: string)
    requires xs != []
    ensures ArrayTail(Elements(xs) + ("]" + rest)) == Some((xs, rest))
    decreases |xs|
  {
    if |xs| == 1 {
      assert Elements(xs) == Quote(xs[0]);
      ArrayTailLast(xs[0], rest);
      assert [xs[0]] == xs;
    } else {
      var t := Elements(xs[1..]) + ("]" + rest);
      ElementsUnfold(xs, "]" + rest);
      ElementsStart(xs[1..], "]" + rest);
      ArrayTailRoundTrip(xs[1..], rest);
      ArrayTailNext(xs[0], t, xs[1..], rest);
      assert [xs[0]] + xs[1..] == xs;
    }
  }

  /** A bracket followed by an array tail that ends the text decodes. */
  lemma DecodeArray(t: string, xs: seq<string>)
    requires t != [] && t[0] == '"'
    requires ArrayTail(t) == Some((xs, ""))
    ensures ParseArray("[" + t) == Success(xs)
  {
    var s := "[" + t;
    SkipSpaceStops(s);
    assert s[0] == '[' && s[1..] == t;
    SkipSpaceStops(t);
    assert AtEnd(xs, "") == Success(xs);
    assert Items(t) == Success(xs);
  }

  lemma RoundTripEmpty()
    ensures ParseArray(Encode([])) == Success([])
  {
    var e := Encode([]);
    assert e == "[]";
    SkipSpaceStops(e);
    var t := e[1..];
    assert t == "]";
    SkipSpaceStops(t);
    assert t[1..] == [];
    assert AtEnd([], []) == Success([]);
    assert Items(t) == Success([]);
  }

  lemma RoundTripNonEmpty(xs: seq<string>)
    requires xs != []
    ensures ParseArray(Encode(xs)) == Success(xs)
  {
    var t := Elements(xs) + ("]" + "");
    var e := Encode(xs);
    assert e == "[" + t;
    ArrayTailRoundTrip(xs, "");
    ElementsStart(xs, "]");
    DecodeArray(t, xs);
  }

  /** Reading back what `Encode` wrote yields the same list. */
  lemma RoundTrip(xs: seq<string>)
    ensures ParseArray(Encode(xs)) == Success(xs)
  {
    if xs == [] {
      RoundTripEmpty();
    } else {
      RoundTripNonEmpty(xs);
    }
  }

  /** `JSON.parse` restricted to an array of strings: it reads back every
      text `JSON.stringify` makes of a list of strings as that list, and it
      fails on any text that does not open, after JSON white space, with `[`. */
  function Decode(text: string): (r: Result<seq<string>, DecodeError>)
    ensures forall xs :: text == Encode(xs) ==> r == Success(xs)
    ensures r.Success? ==> SkipSpace(text) != [] && SkipSpace(text)[0] == '['
  {
    ParsesEncodings(text);
    ParseArray(text)
  }

  lemma ParsesEncodings(text: string)
    ensures forall xs :: text == Encode(xs) ==> ParseArray(text) == Success(xs)
  {
    forall xs | text == Encode(xs) {
      RoundTrip(xs);
    }
  }

  /** Distinct lists are stored as distinct texts. */
  lemma EncodeInjective(xs: seq<string>, ys: seq<string>)
    requires Encode(xs) == Encode(ys)
    ensures xs == ys
  {
    RoundTrip(xs);
    RoundTrip(ys);
  }
}

=== FILE: portfolio.dfy ===
/**
 * The two managers of localStorage.js share one browser store under
 * different keys; neither disturbs what the other saved.
 */
module Portfolio {

  import Storage
  import Favorites
  import Theme

  /** Toggling a favourite leaves the saved theme as it was. */
  lemma FavoritesKeepTheme(p: Favorites.Page, id: string)
    ensures Theme.StoredTheme(Favorites.ToggleFavorite(p, id).store) == Theme.StoredTheme(p.store)
  {
    assert Favorites.FavoritesKey != Theme.ThemeKey;
  }

  /** Changing the theme leaves the saved favourites as they were. */
  lemma ThemeKeepsFavorites(st: Theme.ThemeState, theme: string)
    ensures Favorites.GetFavorites(Theme.SetTheme(st, theme).store) == Favorites.GetFavorites(st.store)
  {
    assert Favorites.FavoritesKey != Theme.ThemeKey;
  }
}

=== FILE: render.dfy ===
/**
 * `renderSkills` and `renderProjects` of `PortfolioApp` (main.js): each
 * entry is mapped through a template literal and the pieces are joined with
 * the empty separator. The template text is reproduced character for
 * character; the file's CRLF line breaks become "\n" inside the template, as
 * template literals normalise them.
 */
module Render {

  import JsString
  import opened Content
  import opened Wrappers

  // ---------------------------------------------------------------------------
  // `array.map(f).join("")`

  /** `array.map(f).join("")`. */
  function JoinMap<T>(f: T -> string, xs: seq<T>): (r: string)
    ensures xs == [] ==> r == ""
  {
    if xs == [] then "" else f(xs[0]) + JoinMap(f, xs[1..])
  }

  /** Mapping and joining two lists joins the two results: the parts keep the
      order of the list. */
  lemma {:induction false} JoinMapAppend<T>(f: T -> string, a: seq<T>, b: seq<T>)
    ensures JoinMap(f, a + b) == JoinMap(f, a) + JoinMap(f, b)
  {
    if a == [] {
      assert a + b == b;
    } else {
      assert (a + b)[1..] == a[1..] + b;
      JoinMapAppend(f, a[1..], b);
    }
  }

  /** The part made from the `i`-th element sits between the parts made from
      the elements before it and those made from the elements after it. */
  lemma JoinMapAt<T>(f: T -> string, xs: seq<T>, i: int)
    requires 0 <= i < |xs|
    ensures JoinMap(f, xs) == JoinMap(f, xs[..i]) + f(xs[i]) + JoinMap(f, xs[i + 1..])
  {
    var before, after := xs[..i], xs[i + 1..];
    JsString.SplitAround(xs, i);
    JoinMapAppend(f, before, [xs[i]] + after);
    JoinMapCons(f, xs[i], after);
  }

  lemma JoinMapCons<T>(f: T -> string, x: T, xs: seq<T>)
    ensures JoinMap(f, [x] + xs) == f(x) + JoinMap(f, xs)
  {
    assert ([x] + xs)[1..] == xs;
  }

  /** The part made from every element appears in the joined text. */
  lemma PartInJoinMap<T>(f: T -> string, xs: seq<T>, i: int)
    requires 0 <= i < |xs|
    ensures JsString.IsSubstring(f(xs[i]), JoinMap(f, xs))
  {
    JoinMapAt(f, xs, i);
    JsString.InConcat(JoinMap(f, xs[..i]), f(xs[i]), JoinMap(f, xs[i + 1..]));
  }

  /** `array.join("")` of a list of strings. */
  function Verbatim(s: string): string { s }

  function Join(pieces: seq<string>): string {
    JoinMap(Verbatim, pieces)
  }

  /** Every piece appears in the joined text. */
  lemma PieceInJoin(pieces: seq<string>, i: int)
    requires 0 <= i < |pieces|
    ensures JsString.IsSubstring(pieces[i], Join(pieces))
  {
    PartInJoinMap(Verbatim, pieces, i);
  }

  /** The part made from every element appears in the joined text. */
  lemma EveryPartInJoinMap<T>(f: T -> string, xs: seq<T>)
    ensures forall i :: 0 <= i < |xs| ==> JsString.IsSubstring(f(xs[i]), JoinMap(f, xs))
  {
    forall i | 0 <= i < |xs|
      ensures JsString.IsSubstring(f(xs[i]), JoinMap(f, xs))
    {
      PartInJoinMap(f, xs, i);
    }
  }

  /** When no part is empty, the joined text is empty exactly for the empty
      list. */
  lemma JoinMapEmpty<T>(f: T -> string, xs: seq<T>)
    requires forall x :: f(x) != ""
    ensures JoinMap(f, xs) == "" <==> xs == []
  {
    if xs != [] {
      assert |f(xs[0])| > 0;
    }
  }

  // ---------------------------------------------------------------------------
  // Skills

  /** `${skill.level}` for an integer level (exact up to magnitude 2^53). */
  function LevelText(level: int): string {
    JsString.IntToString(level)
  }

  /** The parts of the skill template that show the skill: the heading, the
      progress-bar width and the percentage label. */
  function NameHeading(s: Skill): string { "<h3>" + s.name + "</h3>" }
  function WidthStyle(s: Skill): string { "width: " + LevelText(s.level) + "%" }
  function LevelLabel(s: Skill): string { "<span>" + LevelText(s.level) + "%</span>" }

  /** The literal text of the skill template around those parts. */
  const SkillCardOpen: string := "\n            <div class=\"skill-card\">\n                "
  const SkillBarOpen: string :=
    "\n                <div class=\"skill-level\">\n                    <div class=\"skill-bar\">\n                        <div class=\"skill-progress\" style=\""
  const SkillBarClose: string := "\"></div>\n                    </div>\n                    "
  const SkillCardClose: string := "\n                </div>\n            </div>\n        "

  /** The skill template, cut into literal text and the parts above. */
  function SkillPieces(s: Skill): seq<string> {
    [SkillCardOpen, NameHeading(s), SkillBarOpen, WidthStyle(s), SkillBarClose, LevelLabel(s), SkillCardClose]
  }

  /** One skill card: it shows the name as heading, and the level both as
      the bar's width and as the label, in percent. */
  function SkillCard(s: Skill): (card: string)
    ensures JsString.IsSubstring("<h3>" + s.name + "</h3>", card)
    ensures JsString.IsSubstring("width: " + LevelText(s.level) + "%", card)
    ensures JsString.IsSubstring("<span>" + LevelText(s.level) + "%</span>", card)
    ensures |card| > 0
  {
    var pieces := SkillPieces(s);
    PieceInJoin(pieces, 1);
    PieceInJoin(pieces, 3);
    PieceInJoin(pieces, 5);
    Join(pieces)
  }

  /** The percentage text reads back as the level it was made from. */
  lemma LevelReadsBack(level: int)
    ensures JsString.ParseInt(LevelText(level)) == Some(level)
  {
    JsString.IntToStringRoundTrip(level);
  }

  /** `renderSkills`: the container's new HTML, one card per skill. */
  function RenderSkills(skills: seq<Skill>): (html: string)
    ensures html == "" <==> skills == []
    ensures forall i :: 0 <= i < |skills| ==> JsString.IsSubstring(SkillCard(skills[i]), html)
  {
    JoinMapEmpty(SkillCard, skills);
    EveryPartInJoinMap(SkillCard, skills);
    JoinMap(SkillCard, skills)
  }

  /** Rendering two lists of skills renders each in turn. */
  lemma RenderSkillsAppend(a: seq<Skill>, b: seq<Skill>)
    ensures RenderSkills(a + b) == RenderSkills(a) + RenderSkills(b)
  {
    JoinMapAppend(SkillCard, a, b);
  }

  /** The card of the `i`-th skill sits between the cards of the skills
      before it and those after it. */
  lemma SkillCardAt(skills: seq<Skill>, i: int)
    requires 0 <= i < |skills|
    ensures RenderSkills(skills) == RenderSkills(skills[..i]) + SkillCard(skills[i]) + RenderSkills(skills[i + 1..])
  {
    JoinMapAt(SkillCard, skills, i);
  }

  /** Every skill's name and level are on the page. */
  lemma EverySkillShown(skills: seq<Skill>, i: int)
    requires 0 <= i < |skills|
    ensures JsString.IsSubstring("<h3>" + skills[i].name + "</h3>", RenderSkills(skills))
    ensures JsString.IsSubstring("width: " + LevelText(skills[i].level) + "%", RenderSkills(skills))
    ensures JsString.IsSubstring("<span>" + LevelText(skills[i].level) + "%</span>", RenderSkills(skills))
  {
    var s := skills[i];
    var html := RenderSkills(skills);
    PartInJoinMap(SkillCard, skills, i);
    JsString.SubstringTrans("<h3>" + s.name + "</h3>", SkillCard(s), html);
    JsString.SubstringTrans("width: " + LevelText(s.level) + "%", SkillCard(s), html);
    JsString.SubstringTrans("<span>" + LevelText(s.level) + "%</span>", SkillCard(s), html);
  }

  // ---------------------------------------------------------------------------
  // Projects

  /** One tag: `<span class="tag">${tag}</span>`. */
  function TagSpan(tag: string): string {
    "<span class=\"tag\">" + tag + "</span>"
  }

  /** The tag list of a card, one span per tag. */
  function TagsMarkup(tags: seq<string>): string {
    JoinMap(TagSpan, tags)
  }

  /** Every tag is shown in its own span. */
  lemma EveryTagShown(tags: seq<string>, i: int)
    requires 0 <= i < |tags|
    ensures JsString.IsSubstring("<span class=\"tag\">" + tags[i] + "</span>", TagsMarkup(tags))
  {
    PartInJoinMap(TagSpan, tags, i);
  }

  /** The tag spans keep the order of the tags. */
  lemma TagsMarkupAppend(a: seq<string>, b: seq<string>)
    ensures TagsMarkup(a + b) == TagsMarkup(a) + TagsMarkup(b)
  {
    JoinMapAppend(TagSpan, a, b);
  }

  /** The attributes of both links after the address. */
  const LinkAttributes: string := " target=\"_blank\" rel=\"noopener\">"

  /** The parts of the project template that show the project. */
  function DataProject(p: Project): string { "data-project=\"" + JsString.Lower(p.title) + "\"" }
  function ImageSource(p: Project): string { "src=\"" + p.image + "\"" }
  function ImageAlt(p: Project): string { "alt=\"" + p.title + "\"" }
  function TitleHeading(p: Project): string { "<h3>" + p.title + "</h3>" }
  function DescriptionParagraph(p: Project): string { "<p>" + p.description + "</p>" }
  function DemoLink(p: Project): string { "href=\"" + p.demo + "\"" + LinkAttributes + "Demo</a>" }
  function CodeLink(p: Project): string { "href=\"" + p.code + "\"" + LinkAttributes + "C\U{F3}digo</a>" }

  /** The literal text of the project template around those parts. */
  const ProjectCardOpen: string := "\n            <div class=\"project-card\" "
  const ImageOpen: string := ">\n                <img "
  const ImageClose: string := " loading=\"lazy\">\n                <div class=\"project-info\">\n                    "
  const InfoBreak: string := "\n                    "
  const TagsOpen: string := "\n                    <div class=\"project-tags\">\n                        "
  const LinksOpen: string := "\n                    </div>\n                    <div class=\"project-links\">\n                        <a "
  const LinkBreak: string := "\n                        <a "
  const ProjectCardClose: string := "\n                    </div>\n                </div>\n            </div>\n        "

  /** The project template, cut into literal text and the parts above. */
  function ProjectPieces(p: Project): seq<string> {
    [ ProjectCardOpen, DataProject(p), ImageOpen, ImageSource(p), " ", ImageAlt(p), ImageClose,
      TitleHeading(p), InfoBreak, DescriptionParagraph(p), TagsOpen, TagsMarkup(p.tags), LinksOpen,
      DemoLink(p), LinkBreak, CodeLink(p), ProjectCardClose ]
  }

  /** One project card: its `data-project` attribute is the lowered title,
      and it shows the image, title, description, tags and both links. */
  function ProjectCard(p: Project): (card: string)
    ensures JsString.IsSubstring("data-project=\"" + JsString.Lower(p.title) + "\"", card)
    ensures JsString.IsSubstring("src=\"" + p.image + "\"", card)
    ensures JsString.IsSubstring("alt=\"" + p.title + "\"", card)
    ensures JsString.IsSubstring("<h3>" + p.title + "</h3>", card)
    ensures JsString.IsSubstring("<p>" + p.description + "</p>", card)
    ensures JsString.IsSubstring(TagsMarkup(p.tags), card)
    ensures JsString.IsSubstring("href=\"" + p.demo + "\"", card)
    ensures JsString.IsSubstring("href=\"" + p.code + "\"", card)
    ensures |card| > 0
  {
    var pieces := ProjectPieces(p);
    PieceInJoin(pieces, 1);
    PieceInJoin(pieces, 3);
    PieceInJoin(pieces, 5);
    PieceInJoin(pieces, 7);
    PieceInJoin(pieces, 9);
    PieceInJoin(pieces, 11);
    PieceInJoin(pieces, 13);
    PieceInJoin(pieces, 15);
    LinkTarget(p.demo, "Demo</a>");
    LinkTarget(p.code, "C\U{F3}digo</a>");
    JsString.SubstringTrans("href=\"" + p.demo + "\"", DemoLink(p), Join(pieces));
    JsString.SubstringTrans("href=\"" + p.code + "\"", CodeLink(p), Join(pieces));
    Join(pieces)
  }

  /** A link's text begins with its address attribute. */
  lemma LinkTarget(url: string, text: string)
    ensures JsString.IsSubstring("href=\"" + url + "\"", "href=\"" + url + "\"" + LinkAttributes + text)
  {
    JsString.InConcat([], "href=\"" + url + "\"", LinkAttributes + text);
    assert [] + ("href=\"" + url + "\"") + (LinkAttributes + text) == "href=\"" + url + "\"" + LinkAttributes + text;
  }

  /** `renderProjects`: the container's new HTML, one card per project. */
  function RenderProjects(ps: seq<Project>): (html: string)
    ensures html == "" <==> ps == []
    ensures forall i :: 0 <= i < |ps| ==> JsString.IsSubstring(ProjectCard(ps[i]), html)
  {
    JoinMapEmpty(ProjectCard, ps);
    EveryPartInJoinMap(ProjectCard, ps);
    JoinMap(ProjectCard, ps)
  }

  /** Rendering two lists of projects renders each in turn. */
  lemma RenderProjectsAppend(a: seq<Project>, b: seq<Project>)
    ensures RenderProjects(a + b) == RenderProjects(a) + RenderProjects(b)
  {
    JoinMapAppend(ProjectCard, a, b);
  }

  /** The card of the `i`-th project sits between the cards of the projects
      before it and those after it. */
  lemma ProjectCardAt(ps: seq<Project>, i: int)
    requires 0 <= i < |ps|
    ensures RenderProjects(ps) == RenderProjects(ps[..i]) + ProjectCard(ps[i]) + RenderProjects(ps[i + 1..])
  {
    JoinMapAt(ProjectCard, ps, i);
  }

  /** Every project's card carries its lowered title as `data-project` and
      shows its title, description and every one of its tags. */
  lemma EveryProjectShown(ps: seq<Project>, i: int)
    requires 0 <= i < |ps|
    ensures JsString.IsSubstring("data-project=\"" + JsString.Lower(ps[i].title) + "\"", RenderProjects(ps))
    ensures JsString.IsSubstring("<h3>" + ps[i].title + "</h3>", RenderProjects(ps))
    ensures JsString.IsSubstring("<p>" + ps[i].description + "</p>", RenderProjects(ps))
    ensures forall j :: 0 <= j < |ps[i].tags| ==>
      JsString.IsSubstring("<span class=\"tag\">" + ps[i].tags[j] + "</span>", RenderProjects(ps))
  {
    var p := ps[i];
    var html := RenderProjects(ps);
    PartInJoinMap(ProjectCard, ps, i);
    JsString.SubstringTrans("data-project=\"" + JsString.Lower(p.title) + "\"", ProjectCard(p), html);
    JsString.SubstringTrans("<h3>" + p.title + "</h3>", ProjectCard(p), html);
    JsString.SubstringTrans("<p>" + p.description + "</p>", ProjectCard(p), html);
    JsString.SubstringTrans(TagsMarkup(p.tags), ProjectCard(p), html);
    forall j | 0 <= j < |p.tags|
      ensures JsString.IsSubstring("<span class=\"tag\">" + p.tags[j] + "</span>", html)
    {
      EveryTagShown(p.tags, j);
      JsString.SubstringTrans("<span class=\"tag\">" + p.tags[j] + "</span>", TagsMarkup(p.tags), html);
    }
  }
}

=== FILE: search.dfy ===
/**
 * The project search of `PortfolioApp` (main.js): the input listener lowers
 * the typed text, and `filterProjects` shows exactly the cards whose
 * lowered title, description or one of whose lowered tags contains it.
 */
module ProjectSearch {

  import JsString
  import opened Content

  /** The `style.display` a card is given: "block" or "none". */
  datatype Display = Block | NoDisplay

  /** The reference meaning of "the card matches `term`". */
  ghost predicate Matches(term: string, p: Project) {
    JsString.IsSubstring(term, JsString.Lower(p.title))
    || JsString.IsSubstring(term, JsString.Lower(p.description))
    || exists i :: 0 <= i < |p.tags| && JsString.IsSubstring(term, JsString.Lower(p.tags[i]))
  }

  /** `tags.some(tag => tag.includes(term))` over the lowered tags. */
  function AnyTagContains(tags: seq<string>, term: string): (b: bool)
    ensures b <==> exists i :: 0 <= i < |tags| && JsString.IsSubstring(term, JsString.Lower(tags[i]))
  {
    if tags == [] then false
    else
      var rest := AnyTagContains(tags[1..], term);
      assert forall i :: 0 < i < |tags| ==> tags[1..][i - 1] == tags[i];
      JsString.Contains(JsString.Lower(tags[0]), term) || rest
  }

  /** The `matches` test of one card. */
  function CardMatches(term: string, p: Project): (b: bool)
    ensures b <==> Matches(term, p)
  {
    JsString.Contains(JsString.Lower(p.title), term)
    || JsString.Contains(JsString.Lower(p.description), term)
    || AnyTagContains(p.tags, term)
  }

  /** `filterProjects`: one display value per card, in page order. */
  function FilterProjects(term: string, ps: seq<Project>): (r: seq<Display>)
    ensures |r| == |ps|
    ensures forall i :: 0 <= i < |ps| ==> (r[i] == Block <==> Matches(term, ps[i]))
  {
    if ps == [] then []
    else
      var rest := FilterProjects(term, ps[1..]);
      assert forall i :: 0 < i < |ps| ==> ps[1..][i - 1] == ps[i];
      [if CardMatches(term, ps[0]) then Block else NoDisplay] + rest
  }

  /** The input listener of `setupSearch`: the typed value is lowered first. */
  function OnSearchInput(value: string, ps: seq<Project>): (r: seq<Display>)
    ensures |r| == |ps|
    ensures forall i :: 0 <= i < |ps| ==> (r[i] == Block <==> Matches(JsString.Lower(value), ps[i]))
  {
    FilterProjects(JsString.Lower(value), ps)
  }

  // ---------------------------------------------------------------------------
  // Properties of the search

  /** Clearing the search box shows every card. */
  lemma EmptySearchShowsAll(ps: seq<Project>)
    ensures forall i :: 0 <= i < |ps| ==> OnSearchInput("", ps)[i] == Block
  {
    assert JsString.Lower("") == "";
    forall i | 0 <= i < |ps|
      ensures Matches("", ps[i])
    {
      assert JsString.OccursAt("", JsString.Lower(ps[i].title), 0);
    }
  }

  /** Whether a card is shown depends on that card alone: filtering a page
      made of two groups of cards filters each group. */
  lemma {:induction false} FilterAppend(term: string, a: seq<Project>, b: seq<Project>)
    ensures FilterProjects(term, a + b) == FilterProjects(term, a) + FilterProjects(term, b)
  {
    if a == [] {
      assert a + b == b;
    } else {
      assert (a + b)[1..] == a[1..] + b;
      FilterAppend(term, a[1..], b);
    }
  }

  /** The case of the typed text does not matter. */
  lemma SearchIgnoresCase(value: string, ps: seq<Project>)
    ensures OnSearchInput(JsString.Lower(value), ps) == OnSearchInput(value, ps)
  {
    JsString.LowerIdempotent(value);
  }

  /** Typing any piece of a project's title, in any case, keeps its card. */
  lemma TitleFragmentShows(value: string, ps: seq<Project>, i: int)
    requires 0 <= i < |ps| && JsString.IsSubstring(value, ps[i].title)
    ensures OnSearchInput(value, ps)[i] == Block
  {
    JsString.LowerKeepsOccurrence(value, ps[i].title);
  }

  /** A card that matches a term matches every piece of that term. */
  lemma NarrowerTermKeeps(t1: string, t2: string, p: Project)
    requires JsString.IsSubstring(t1, t2) && Matches(t2, p)
    ensures Matches(t1, p)
  {
    if JsString.IsSubstring(t2, JsString.Lower(p.title)) {
      JsString.SubstringTrans(t1, t2, JsString.Lower(p.title));
    } else if JsString.IsSubstring(t2, JsString.Lower(p.description)) {
      JsString.SubstringTrans(t1, t2, JsString.Lower(p.description));
    } else {
      var k :| 0 <= k < |p.tags| && JsString.IsSubstring(t2, JsString.Lower(p.tags[k]));
      JsString.SubstringTrans(t1, t2, JsString.Lower(p.tags[k]));
    }
  }

  lemma LoweredPrefix(value: string, more: string)
    ensures JsString.IsSubstring(JsString.Lower(value), JsString.Lower(value + more))
  {
    JsString.LowerAppend(value, more);
    JsString.InConcat([], JsString.Lower(value), JsString.Lower(more));
    assert [] + JsString.Lower(value) + JsString.Lower(more) == JsString.Lower(value + more);
  }

  /** Typing more characters can only hide cards, never reveal one. */
  lemma TypingMoreOnlyHides(value: string, more: string, ps: seq<Project>, i: int)
    requires 0 <= i < |ps| && OnSearchInput(value + more, ps)[i] == Block
    ensures OnSearchInput(value, ps)[i] == Block
  {
    LoweredPrefix(value, more);
    NarrowerTermKeeps(JsString.Lower(value), JsString.Lower(value + more), ps[i]);
  }
}

=== FILE: storage.dfy ===
/**
 * The browser's key-value store (`localStorage`) as an immutable map from
 * keys to strings. Both page managers share one store.
 */
module Storage {

  import opened Wrappers

  type Store = map<string, string>

  /** `localStorage.getItem`: `None` plays the part of `null`. */
  function GetItem(store: Store, key: string): Option<string> {
    if key in store then Some(store[key]) else None
  }

  /** `localStorage.setItem`: overwrites `key`, leaves every other key alone. */
  function SetItem(store: Store, key: string, value: string): (r: Store)
    ensures GetItem(r, key) == Some(value)
    ensures forall k :: k != key ==> GetItem(r, k) == GetItem(store, k)
  {
    store[key := value]
  }
}

=== FILE: strings.dfy ===
/**
 * The JavaScript string primitives the page scripts rely on: `trim`, the
 * regular-expression class `\s`, `toLowerCase`, `includes`, `.length` (counted
 * in UTF-16 code units) and the decimal rendering of an integer.
 * A Dafny `char` is a Unicode scalar value, so a string here is always
 * well-formed UTF-16 once encoded.
 */
module JsString {

  import opened Wrappers

  /** WhiteSpace and LineTerminator code points of ECMAScript (sections 12.2 and
      12.3 of ECMA-262, with the Unicode 15 "Zs" category). `String.prototype.trim`
      and the class `\s` both use exactly this set. */
  predicate IsSpace(c: char) {
    var n := c as int;
    n == 0x09 || n == 0x0A || n == 0x0B || n == 0x0C || n == 0x0D || n == 0x20
    || n == 0xA0 || n == 0x1680 || (0x2000 <= n <= 0x200A) || n == 0x2028
    || n == 0x2029 || n == 0x202F || n == 0x205F || n == 0x3000 || n == 0xFEFF
  }

  predicate AllSpace(s: string) {
    forall k :: 0 <= k < |s| ==> IsSpace(s[k])
  }

  /** Number of leading white-space characters. */
  function LeadingSpace(s: string): (n: nat)
    ensures n <= |s|
    ensures AllSpace(s[..n])
    ensures n == |s| || !IsSpace(s[n])
  {
    if |s| > 0 && IsSpace(s[0]) then 1 + LeadingSpace(s[1..]) else 0
  }

  /** Length of `s` once its trailing white space is cut off. */
  function TrailingStart(s: string): (n: nat)
    ensures n <= |s|
    ensures AllSpace(s[n..])
    ensures n == 0 || !IsSpace(s[n - 1])
  {
    if |s| > 0 && IsSpace(s[|s| - 1]) then TrailingStart(s[..|s| - 1]) else |s|
  }

  lemma SplitAt(s: string, i: int)
    requires 0 <= i <= |s|
    ensures s[..i] + s[i..] == s
  {
  }

  /** A sequence is what comes before position `i`, the element at `i`, and
      what comes after it. */
  lemma SplitAround<T>(xs: seq<T>, i: int)
    requires 0 <= i < |xs|
    ensures xs == xs[..i] + [xs[i]] + xs[i + 1..]
    ensures xs == xs[..i] + ([xs[i]] + xs[i + 1..])
  {
  }

  lemma SliceOfSlice(s: string, i: int, j: int)
    requires 0 <= i <= |s| && 0 <= j <= |s| - i
    ensures s[i..][..j] == s[i..i + j]
    ensures s[i..][j..] == s[i + j..]
  {
  }

  lemma AllSpaceConcat(a: string, b: string)
    requires AllSpace(a) && AllSpace(b)
    ensures AllSpace(a + b)
  {
  }

  /** When nothing but white space follows the leading white space, the
      whole string is white space. */
  lemma NothingLeft(s: string)
    requires TrailingStart(s[LeadingSpace(s)..]) == 0
    ensures AllSpace(s)
  {
    var i := LeadingSpace(s);
    var t := s[i..];
    assert t[0..] == t;
    AllSpaceConcat(s[..i], t);
    SplitAt(s, i);
  }

  /** `String.prototype.trim`: the slice between the first and the last
      non-white-space character, empty when there is none. */
  function Trim(s: string): (r: string)
    ensures |r| <= |s|
    ensures r == [] <==> AllSpace(s)
    ensures r != [] ==> !IsSpace(r[0]) && !IsSpace(r[|r| - 1])
    ensures LeadingSpace(s) + |r| <= |s|
    ensures r == s[LeadingSpace(s)..LeadingSpace(s) + |r|]
    ensures AllSpace(s[LeadingSpace(s) + |r|..])
  {
    var i := LeadingSpace(s);
    var t := s[i..];
    var j := TrailingStart(t);
    SliceOfSlice(s, i, j);
    if j == 0 then
      NothingLeft(s);
      []
    else
      assert t[0] == s[i];
      t[..j]
  }

  /** A string that neither starts nor ends with white space is its own trim. */
  lemma TrimKeeps(s: string)
    requires s != [] && !IsSpace(s[0]) && !IsSpace(s[|s| - 1])
    ensures Trim(s) == s
  {
    assert LeadingSpace(s) == 0;
    var r := Trim(s);
    SpaceSuffixEnd(s, |r|);
    assert s[..|s|] == s;
  }

  lemma SpaceSuffixEnd(s: string, i: int)
    requires 0 <= i <= |s| && AllSpace(s[i..])
    ensures i == |s| || IsSpace(s[|s| - 1])
  {
    if i < |s| {
      assert s[i..][|s| - i - 1] == s[|s| - 1];
    }
  }

  /** A character outside the Basic Multilingual Plane. */
  predicate IsAstral(c: char) {
    c as int >= 0x10000
  }

  /** The characters of `s` outside the Basic Multilingual Plane. */
  function AstralChars(s: string): (r: string)
    ensures |r| <= |s|
    ensures forall k :: 0 <= k < |r| ==> IsAstral(r[k])
  {
    if s == [] then [] else (if IsAstral(s[0]) then [s[0]] else []) + AstralChars(s[1..])
  }

  /** Number of UTF-16 code units of `s`: JavaScript's `.length`. Characters
      outside the Basic Multilingual Plane take a surrogate pair, so each of
      them counts twice. */
  function Utf16Length(s: string): (n: nat)
    ensures n == |s| + |AstralChars(s)|
    ensures |s| <= n <= 2 * |s|
  {
    if s == [] then 0
    else (if IsAstral(s[0]) then 2 else 1) + Utf16Length(s[1..])
  }

  /** A string counts one code unit per character when it has no
      character outside the Basic Multilingual Plane. */
  lemma {:induction false} Utf16LengthBmp(s: string)
    requires forall k :: 0 <= k < |s| ==> (s[k] as int) < 0x10000
    ensures Utf16Length(s) == |s|
  {
    if s != [] {
      assert forall k :: 0 <= k < |s[1..]| ==> s[1..][k] == s[k + 1];
      Utf16LengthBmp(s[1..]);
    }
  }

  /** ASCII case folding of one character (`toLowerCase` restricted to ASCII). */
  function LowerChar(c: char): char {
    if 'A' <= c <= 'Z' then (c as int + 32) as char else c
  }

  /** `toLowerCase`, character by character: each ASCII capital becomes its
      small letter (32 code points further on), every other character stays. */
  function Lower(s: string): (r: string)
    ensures |r| == |s|
    ensures forall k :: 0 <= k < |s| && 'A' <= s[k] <= 'Z' ==> r[k] as int == s[k] as int + 32
    ensures forall k :: 0 <= k < |s| && !('A' <= s[k] <= 'Z') ==> r[k] == s[k]
    ensures forall k :: 0 <= k < |r| ==> !('A' <= r[k] <= 'Z')
  {
    seq(|s|, k requires 0 <= k < |s| => LowerChar(s[k]))
  }

  lemma LowerIdempotent(s: string)
    ensures Lower(Lower(s)) == Lower(s)
  {
  }

  lemma LowerAppend(a: string, b: string)
    ensures Lower(a + b) == Lower(a) + Lower(b)
  {
    assert forall k :: 0 <= k < |a + b| ==> Lower(a + b)[k] == (Lower(a) + Lower(b))[k];
  }

  /** Lowering commutes with taking a slice. */
  lemma LowerSlice(s: string, i: int, j: int)
    requires 0 <= i <= j <= |s|
    ensures Lower(s[i..j]) == Lower(s)[i..j]
  {
    assert forall k :: 0 <= k < j - i ==> s[i..j][k] == s[i + k];
  }

  /** `needle` sits in `hay` at position `k`. */
  ghost predicate OccursAt(needle: string, hay: string, k: int) {
    0 <= k && k + |needle| <= |hay| && hay[k..k + |needle|] == needle
  }

  /** The reference meaning of "`needle` is a substring of `hay`". */
  ghost predicate IsSubstring(needle: string, hay: string) {
    exists k :: OccursAt(needle, hay, k)
  }

  /** `String.prototype.includes`, by scanning every start position. */
  function Contains(hay: string, needle: string): (b: bool)
    ensures b <==> IsSubstring(needle, hay)
    decreases |hay|
  {
    if |needle| <= |hay| && hay[..|needle|] == needle then
      assert OccursAt(needle, hay, 0);
      true
    else if hay == [] then
      false
    else
      var rest := Contains(hay[1..], needle);
      ShiftOccurrence(needle, hay);
      rest
  }

  /** An occurrence past position 0 is an occurrence in the tail, and back. */
  lemma ShiftOccurrence(needle: string, hay: string)
    requires hay != []
    requires !(|needle| <= |hay| && hay[..|needle|] == needle)
    ensures IsSubstring(needle, hay) <==> IsSubstring(needle, hay[1..])
  {
    if IsSubstring(needle, hay[1..]) {
      var k :| OccursAt(needle, hay[1..], k);
      assert hay[1..][k..k + |needle|] == hay[k + 1..k + 1 + |needle|];
      assert OccursAt(needle, hay, k + 1);
    }
    if IsSubstring(needle, hay) {
      var k :| OccursAt(needle, hay, k);
      assert hay[1..][k - 1..k - 1 + |needle|] == hay[k..k + |needle|];
      assert OccursAt(needle, hay[1..], k - 1);
    }
  }

  /** Lowering both sides preserves an occurrence: a case-sensitive match
      is also a case-insensitive one. */
  lemma LowerKeepsOccurrence(needle: string, hay: string)
    requires IsSubstring(needle, hay)
    ensures IsSubstring(Lower(needle), Lower(hay))
  {
    var k :| OccursAt(needle, hay, k);
    LowerSlice(hay, k, k + |needle|);
    assert OccursAt(Lower(needle), Lower(hay), k);
  }

  /** Anything placed between two strings is a substring of the result. */
  lemma InConcat(a: string, b: string, c: string)
    ensures IsSubstring(b, a + b + c)
  {
    assert (a + b + c)[|a|..|a| + |b|] == b;
    assert OccursAt(b, a + b + c, |a|);
  }

  lemma SliceOfRange(z: string, lo: int, hi: int, i: int, m: int)
    requires 0 <= lo <= hi <= |z| && 0 <= i <= m <= hi - lo
    ensures z[lo..hi][i..m] == z[lo + i..lo + m]
  {
    assert forall k :: 0 <= k < m - i ==> z[lo..hi][i..m][k] == z[lo + i + k];
  }

  /** A substring of a substring is a substring. */
  lemma SubstringTrans(x: string, y: string, z: string)
    requires IsSubstring(x, y) && IsSubstring(y, z)
    ensures IsSubstring(x, z)
  {
    var i :| OccursAt(x, y, i);
    var j :| OccursAt(y, z, j);
    SliceOfRange(z, j, j + |y|, i, i + |x|);
    assert OccursAt(x, z, j + i);
  }

  // ---------------------------------------------------------------------------
  // Decimal rendering of integers (`${n}` on a JavaScript integer number)

  predicate IsDigit(c: char) {
    '0' <= c <= '9'
  }

  predicate AllDigits(s: string) {
    forall k :: 0 <= k < |s| ==> IsDigit(s[k])
  }

  function DigitChar(d: nat): (c: char)
    requires d < 10
    ensures IsDigit(c)
  {
    ('0' as int + d) as char
  }

  /** Value of a string of decimal digits, most significant first. */
  function DecimalValue(s: string): nat
    requires AllDigits(s)
  {
    if s == [] then 0
    else 10 * DecimalValue(s[..|s| - 1]) + (s[|s| - 1] as int - '0' as int)
  }

  /** Shortest decimal representation of a natural number. */
  function NatToString(n: nat): (r: string)
    ensures r != [] && AllDigits(r)
    ensures DecimalValue(r) == n
    ensures r[0] == '0' ==> r == "0"
  {
    if n < 10 then [DigitChar(n)]
    else
      var r := NatToString(n / 10) + [DigitChar(n % 10)];
      assert r[..|r| - 1] == NatToString(n / 10);
      r
  }

  /** `String(n)` for an integer-valued number: a minus sign exactly for
      negative numbers, then the decimal digits of the magnitude. This is
      what JavaScript prints for integers of magnitude at most 2^53, which
      a double holds exactly; beyond that JavaScript prints the shortest
      digits that round-trip to the double, padded with zeros. */
  function IntToString(n: int): (r: string)
    ensures r != []
    ensures r[0] == '-' <==> n < 0
    ensures n >= 0 ==> AllDigits(r) && DecimalValue(r) == n && (r[0] == '0' ==> r == "0")
    ensures n < 0 ==> |r| > 1 && AllDigits(r[1..]) && DecimalValue(r[1..]) == -n && r[1] != '0'
  {
    if n < 0 then
      var d := NatToString(-n);
      assert ("-" + d)[1..] == d;
      "-" + d
    else NatToString(n)
  }

  /** Reads back the output of `IntToString`: an optional minus sign and
      digits without a redundant leading zero. */
  function ParseInt(s: string): Option<int>
  {
    if s == [] then None
    else if s[0] == '-' then
      if |s| > 1 && AllDigits(s[1..]) && s[1] != '0' then Some(-(DecimalValue(s[1..]) as int)) else None
    else if AllDigits(s) && (s[0] == '0' ==> s == "0") then Some(DecimalValue(s))
    else None
  }

  lemma IntToStringRoundTrip(n: int)
    ensures ParseInt(IntToString(n)) == Some(n)
  {
    if n < 0 {
      var d := NatToString(-n);
      assert IntToString(n)[1..] == d;
    }
  }
}

=== FILE: theme.dfy ===
/**
 * `ThemeManager` (localStorage.js): a theme name persisted under
 * `portfolio-theme`, the `dark-mode` class on the page body, and the icon
 * and accessible label of the `#theme-btn` button.
 */
module Theme {

  import opened Wrappers
  import Storage

  const ThemeKey: string := "portfolio-theme"
  const Light: string := "light"
  const Dark: string := "dark"

  /** Crescent moon (offer dark mode) and sun (offer light mode). */
  const MoonIcon: string := "\U{1F319}"
  const SunIcon: string := "\U{2600}\U{FE0F}"
  const OfferDarkLabel: string := "Ativar modo escuro"
  const OfferLightLabel: string := "Ativar modo claro"

  /** The theme button's text and `aria-label`. */
  datatype ThemeButton = ThemeButton(icon: string, ariaLabel: string)

  /** `current` is the manager's theme; `darkMode` is whether the body carries
      the `dark-mode` class; `button` is `None` when the page has no
      `#theme-btn`. */
  datatype ThemeState = ThemeState(current: string, darkMode: bool, store: Storage.Store, button: Option<ThemeButton>)

  /** `updateThemeButton`: the button offers the theme that is not current,
      and touches nothing when the button is missing. */
  function UpdateThemeButton(current: string, button: Option<ThemeButton>): (r: Option<ThemeButton>)
    ensures r.Some? <==> button.Some?
    ensures r.Some? ==> (r.value.icon == MoonIcon <==> current == Light)
    ensures r.Some? ==> (r.value.ariaLabel == OfferDarkLabel <==> current == Light)
  {
    match button
    case None => None
    case Some(_) =>
      if current == Light then Some(ThemeButton(MoonIcon, OfferDarkLabel))
      else Some(ThemeButton(SunIcon, OfferLightLabel))
  }

  /** `setTheme`: record, toggle the body class, persist, update the button. */
  function SetTheme(st: ThemeState, theme: string): (r: ThemeState)
    ensures r.current == theme
    ensures r.darkMode <==> theme == Dark
    ensures Storage.GetItem(r.store, ThemeKey) == Some(theme)
    ensures forall k :: k != ThemeKey ==> Storage.GetItem(r.store, k) == Storage.GetItem(st.store, k)
    ensures r.button.Some? <==> st.button.Some?
    ensures r.button.Some? ==> (r.button.value.icon == MoonIcon <==> theme == Light)
    ensures r.button.Some? ==> (r.button.value.ariaLabel == OfferDarkLabel <==> theme == Light)
  {
    ThemeState(theme, theme == Dark, Storage.SetItem(st.store, ThemeKey, theme), UpdateThemeButton(theme, st.button))
  }

  /** `toggleTheme`: light becomes dark; every other value becomes light. */
  function ToggleTheme(st: ThemeState): (r: ThemeState)
    ensures st.current == Light ==> r.current == Dark && r.darkMode
    ensures st.current != Light ==> r.current == Light && !r.darkMode
  {
    SetTheme(st, if st.current == Light then Dark else Light)
  }

  /** The constructor's starting theme: the stored one, or light when the
      entry is absent or empty (`getItem(...) || "light"`). */
  function StoredTheme(store: Storage.Store): (t: string)
    ensures t != ""
    ensures Storage.GetItem(store, ThemeKey) in {None, Some("")} ==> t == Light
    ensures Storage.GetItem(store, ThemeKey) !in {None, Some("")} ==> Storage.GetItem(store, ThemeKey) == Some(t)
  {
    match Storage.GetItem(store, ThemeKey)
    case None => Light
    case Some(t) => if t == "" then Light else t
  }

  /** The constructor followed by `init`: apply the starting theme at once.
      `hasButton` says whether the page has a `#theme-btn`; its initial
      content is irrelevant since `setTheme` overwrites it. */
  function Init(store: Storage.Store, hasButton: bool): (r: ThemeState)
    ensures r.current == StoredTheme(store)
    ensures r.darkMode <==> r.current == Dark
    ensures Storage.GetItem(r.store, ThemeKey) == Some(r.current)
    ensures forall k :: k != ThemeKey ==> Storage.GetItem(r.store, k) == Storage.GetItem(store, k)
    ensures r.button.Some? <==> hasButton
    ensures r.button.Some? ==> (r.button.value.icon == MoonIcon <==> r.current == Light)
    ensures r.button.Some? ==> (r.button.value.ariaLabel == OfferDarkLabel <==> r.current == Light)
  {
    var button := if hasButton then Some(ThemeButton("", "")) else None;
    SetTheme(ThemeState(StoredTheme(store), false, store, button), StoredTheme(store))
  }

  // ---------------------------------------------------------------------------
  // Properties

  /** The page state agrees with a theme that is light or dark. */
  predicate WellFormed(st: ThemeState) {
    && (st.current == Light || st.current == Dark)
    && (st.darkMode <==> st.current == Dark)
    && Storage.GetItem(st.store, ThemeKey) == Some(st.current)
    && (st.button.Some? ==>
          st.button.value == (if st.darkMode then ThemeButton(SunIcon, OfferLightLabel)
                              else ThemeButton(MoonIcon, OfferDarkLabel)))
  }

  /** With nothing stored, the page starts light and the button offers dark mode. */
  lemma DefaultIsLight(store: Storage.Store, hasButton: bool)
    requires ThemeKey !in store
    ensures Init(store, hasButton).current == Light
    ensures !Init(store, hasButton).darkMode
    ensures Storage.GetItem(Init(store, hasButton).store, ThemeKey) == Some(Light)
    ensures hasButton ==> Init(store, hasButton).button == Some(ThemeButton(MoonIcon, OfferDarkLabel))
  {
  }

  /** Any stored value the manager itself writes gives a well-formed start. */
  lemma InitWellFormed(store: Storage.Store, hasButton: bool)
    requires Storage.GetItem(store, ThemeKey) in {None, Some(""), Some(Light), Some(Dark)}
    ensures WellFormed(Init(store, hasButton))
  {
  }

  /** `setTheme` with light or dark always yields a well-formed page. */
  lemma SetThemeWellFormed(st: ThemeState, theme: string)
    requires theme == Light || theme == Dark
    ensures WellFormed(SetTheme(st, theme))
  {
  }

  /** Toggling preserves well-formedness. */
  lemma ToggleWellFormed(st: ThemeState)
    ensures WellFormed(ToggleTheme(st))
  {
  }

  /** From light or dark, two toggles return to the same page state. */
  lemma ToggleTwice(st: ThemeState)
    requires WellFormed(st)
    ensures ToggleTheme(ToggleTheme(st)).current == st.current
    ensures ToggleTheme(ToggleTheme(st)).darkMode == st.darkMode
    ensures ToggleTheme(ToggleTheme(st)).button == st.button
    ensures Storage.GetItem(ToggleTheme(ToggleTheme(st)).store, ThemeKey) == Some(st.current)
  {
  }

  /** `setTheme("dark")` then `setTheme("light")` restores the flag and label
      of a light page. */
  lemma DarkThenLight(st: ThemeState)
    requires WellFormed(st) && st.current == Light
    ensures SetTheme(SetTheme(st, Dark), Light).darkMode == st.darkMode
    ensures SetTheme(SetTheme(st, Dark), Light).button == st.button
  {
  }

  /** A page reloaded after `setTheme(t)` starts with `t` again, unless `t`
      is empty, which reads back as light. */
  lemma ReloadRestoresTheme(st: ThemeState, theme: string, hasButton: bool)
    ensures Init(SetTheme(st, theme).store, hasButton).current == (if theme == "" then Light else theme)
  {
  }

  /** A stored value other than light or dark (written by something other
      than this manager) leaves the page light while the button offers light
      mode; one toggle repairs it. */
  lemma ForeignStoredTheme(store: Storage.Store, t: string)
    requires Storage.GetItem(store, ThemeKey) == Some(t) && t !in {"", Light, Dark}
    ensures !Init(store, true).darkMode
    ensures Init(store, true).button == Some(ThemeButton(SunIcon, OfferLightLabel))
    ensures WellFormed(ToggleTheme(Init(store, true)))
    ensures ToggleTheme(Init(store, true)).current == Light
  {
  }
}

=== FILE: validation.dfy ===
/**
 * The contact-form rules of `PortfolioApp` (main.js): `validateField` for the
 * name, email and message inputs, `validateForm`, and the submit gate.
 */
module FormValidation {

  import JsString
  import EmailPattern

  datatype Field = Name | Email | Message

  /** The order in which `validateForm` visits the fields. */
  const FieldOrder: seq<Field> := [Name, Email, Message]

  /** The current values of the three inputs. */
  datatype FormValues = FormValues(name: string, email: string, message: string)

  function ValueOf(v: FormValues, f: Field): string {
    match f
    case Name => v.name
    case Email => v.email
    case Message => v.message
  }

  /** What `validateField` leaves on the page for one field: `valid` is the
      absence of the `error` class, `message` the text of its error element. */
  datatype FieldCheck = FieldCheck(valid: bool, message: string)

  const NameError: string := "Nome deve ter pelo menos 2 caracteres"
  const EmailError: string := "Email inv\U{E1}lido"
  const MessageError: string := "Mensagem deve ter pelo menos 10 caracteres"

  // ---------------------------------------------------------------------------
  // validateField, validateForm and the submit gate

  /** The length rule shared by name and message: the trimmed value must
      have at least `min` UTF-16 code units, or `error` is shown. */
  function LengthCheck(value: string, min: nat, error: string): (r: FieldCheck)
    requires error != ""
    ensures r.valid <==> JsString.Utf16Length(JsString.Trim(value)) >= min
    ensures r.valid <==> r.message == ""
    ensures !r.valid ==> r.message == error
  {
    if JsString.Utf16Length(JsString.Trim(value)) < min then FieldCheck(false, error) else FieldCheck(true, "")
  }

  /** The email rule: the untrimmed value must match the pattern. */
  function EmailCheck(value: string): (r: FieldCheck)
    ensures r.valid <==> EmailPattern.MatchesEmailPattern(value)
    ensures r.valid <==> r.message == ""
    ensures !r.valid ==> r.message == EmailError
  {
    if !EmailPattern.EmailValid(value) then FieldCheck(false, EmailError) else FieldCheck(true, "")
  }

  /** `validateField`: name and message are measured after `trim` in UTF-16
      code units; the email pattern is applied to the untrimmed value. The
      error text is empty exactly when the field is valid. */
  function ValidateField(f: Field, value: string): (r: FieldCheck)
    ensures r.valid <==> r.message == ""
  {
    match f
    case Name => LengthCheck(value, 2, NameError)
    case Email => EmailCheck(value)
    case Message => LengthCheck(value, 10, MessageError)
  }

  /** The rule each field is held to, stated on its own. */
  lemma FieldRules(value: string)
    ensures ValidateField(Name, value).valid <==> JsString.Utf16Length(JsString.Trim(value)) >= 2
    ensures ValidateField(Email, value).valid <==> EmailPattern.MatchesEmailPattern(value)
    ensures ValidateField(Message, value).valid <==> JsString.Utf16Length(JsString.Trim(value)) >= 10
  {
  }

  /** All three fields pass. */
  predicate FormValid(v: FormValues) {
    ValidateField(Name, v.name).valid && ValidateField(Email, v.email).valid
    && ValidateField(Message, v.message).valid
  }

  /** `validateForm`: every field is validated, in order, even after one has
      failed (`checks[k]` is what the `k`-th field shows); the result is the
      conjunction. */
  method ValidateForm(v: FormValues) returns (isValid: bool, checks: seq<FieldCheck>)
    ensures |checks| == |FieldOrder|
    ensures forall k :: 0 <= k < |FieldOrder| ==> checks[k] == ValidateField(FieldOrder[k], ValueOf(v, FieldOrder[k]))
    ensures isValid <==> FormValid(v)
  {
    isValid := true;
    checks := [];
    var i := 0;
    while i < |FieldOrder|
      invariant 0 <= i <= |FieldOrder|
      invariant |checks| == i
      invariant forall k :: 0 <= k < i ==> checks[k] == ValidateField(FieldOrder[k], ValueOf(v, FieldOrder[k]))
      invariant isValid <==> forall k :: 0 <= k < i ==> checks[k].valid
    {
      var f := FieldOrder[i];
      var r := ValidateField(f, ValueOf(v, f));
      checks := checks + [r];
      if !r.valid {
        isValid := false;
      }
      i := i + 1;
    }
    assert isValid <==> checks[0].valid && checks[1].valid && checks[2].valid;
  }

  /** The submit listener: the default submission is always prevented, and
      the form data reach the submission handler only when the form is valid. */
  datatype SubmitOutcome = Sent(data: FormValues) | Blocked

  function OnSubmit(v: FormValues): (r: SubmitOutcome)
    ensures r.Sent? <==> ValidateField(Name, v.name).valid && ValidateField(Email, v.email).valid
                          && ValidateField(Message, v.message).valid
    ensures r.Sent? ==> r.data == v
  {
    if FormValid(v) then Sent(v) else Blocked
  }

  // ---------------------------------------------------------------------------
  // What the rules decide

  /** For text with no surrounding white space and no character outside the
      Basic Multilingual Plane, the length rules count characters. */
  lemma PlainTextLength(s: string)
    requires s != [] && !JsString.IsSpace(s[0]) && !JsString.IsSpace(s[|s| - 1])
    requires forall k :: 0 <= k < |s| ==> (s[k] as int) < 0x10000
    ensures ValidateField(Name, s).valid <==> |s| >= 2
    ensures ValidateField(Message, s).valid <==> |s| >= 10
  {
    JsString.TrimKeeps(s);
    JsString.Utf16LengthBmp(s);
  }

  /** `.length` counts UTF-16 code units, so a single character outside the
      Basic Multilingual Plane (an emoji, say) already meets the name rule's
      minimum of 2, while a single character inside it does not. */
  lemma AstralNamePasses(c: char)
    requires !JsString.IsSpace(c)
    ensures ValidateField(Name, [c]).valid <==> JsString.IsAstral(c)
  {
    JsString.TrimKeeps([c]);
    assert [c][1..] == [];
  }

  /** White space alone never passes a length rule. */
  lemma BlankFails(s: string)
    requires JsString.AllSpace(s)
    ensures !ValidateField(Name, s).valid && !ValidateField(Message, s).valid
  {
  }

  lemma EmailExamples()
    ensures !ValidateField(Email, "x@y").valid
    ensures ValidateField(Email, "x@y.com").valid
    ensures !ValidateField(Email, "x@@y.com").valid
  {
    assert EmailPattern.EmailSplit("x@y.com", 1, 3);
  }
}

=== FILE: wrappers.dfy ===
/** Failure-compatible result types shared by the model. */
module Wrappers {

  datatype Option<+T> = None | Some(value: T)

  datatype Result<+R, +E> = Success(value: R) | Failure(error: E) {
    predicate IsFailure() {
      Failure?
    }

    function PropagateFailure<U>(): Result<U, E>
      requires Failure?
    {
      Failure(error)
    }

    function Extract(): R
      requires Success?
    {
      value
    }
  }
}
